=== FILE: README.md ===
# CAB benchmark harness in Dafny

A Dafny model of the evaluation harness of the CAB (Christian AI
Benchmark) package, with proofs of what it guarantees. The model covers:

- loading and validating a question dataset, filtering it and counting it
  (`loader.py`);
- the objective scorer: shuffled multiple-choice options, answer-letter
  extraction and comparison with the key;
- the subjective scorer: a judge panel whose parsed 1-5 scores are
  reduced to a normalised median (`scorer.py`);
- aggregation of per-question scores into overall, per-dimension,
  per-tradition and per-mode means, the headline "cab_score", and
  model comparison (`aggregator.py`);
- the evaluation run that ties these together (`evaluator.py`).

The things that are not computation become parameters:

- the model under test is a function `string -> string`;
- a judge is a function from (panel seat, prompt) to the judge's reply;
- `random.shuffle` is Python's Fisher-Yates loop driven by an explicit
  sequence of draws, one draw sequence per question position;
- the `exp(mean(log))` of `geometric_mean` is a function `root`, and
  `Aggregator.IsRoot` says what it must compute: for a non-empty list of
  positive numbers, the positive number whose n-th power is their product.

Scores are `real`. Python exceptions are `Err` values of `Base.Error`,
named after the exception the code raises (`KeyError("options")`,
`IndexError`, `TypeError`, `ValueError(...)`).

Modules, one per source file plus shared helpers:

- `Base`: Option, Result, errors and validation problems.
- `Seqs`: filter, occurrence counts, distinct keys, sums.
- `Text`: Python's `strip`, `upper`, `split("\n")`, `replace`, `startswith` and `int` of one character.
- `Sorting`: ascending sort of ints, and a stable descending sort of (name, score) entries.
- `Shuffling`: `random.shuffle` as a function of the draws.
- `Loader`, `Scorer`, `Aggregator` and `Evaluator`.

Where the code and its description disagree, the model follows the
code. There are three such places:

- The description says a reply "The answer is C because..." is
  extracted as C. The code takes the first of A-D anywhere in the
  upper-cased reply, which is the A of "ANSWER", so that reply extracts A
  and scores 0.0 against C (`Scorer.TheAnswerIsExtractsA`).
- The description says a zero "poisons" the geometric mean, so that a
  dimension scored [1, 1, 0, 1] has geometric score 0 and a CAB score of
  0. The code (`aggregator.py:13-16`) drops every score that is not
  positive before taking the mean, so that dimension scores the
  geometric mean of [1, 1, 1], which is 1.0
  (`Aggregator.GeometricMeanIgnoresNonPositive`,
  `Aggregator.GeometricMeanOfConstant`).
- The description says the geometric mean is at most the arithmetic
  mean, and that both lie between the smallest and the largest positive
  score. With the non-positive scores dropped that no longer holds: the
  scores [0.0, 1.0] have geometric mean 1.0 and arithmetic mean 0.5
  (`Aggregator.GeometricAboveArithmetic`). What does hold is that the
  geometric mean lies between the smallest and the largest positive
  score (`Aggregator.GeometricMeanBounds`).

Behaviours of the code that the model keeps as written:

- The last `SCORE:` and `JUSTIFICATION:` lines of a judge reply win.
- The median is the element at position `n // 2` of the sorted scores,
  which for an even panel is the upper of the two middle scores.
- The reported `raw_scores` are sorted, so they no longer line up with
  the justifications, which stay in judge order.
- With more than four options, the re-derived letter can be E or later,
  which no reply can match.
- `tradition_rankings` is never filled.

## Model

| member | source | states |
|---|---|---|
| Scorer.PyIndex | cab_benchmark/scorer.py:29-30 | `options[ord(c) - 65]` succeeds exactly for indices in `-n..n-1`, and a negative index counts from the end |
| Scorer.LetterFor | cab_benchmark/scorer.py:36 | `chr(65 + idx)` yields the one-character string with that code point, and raises `ValueError` above U+10FFFF |
| Scorer.PromptLines | cab_benchmark/scorer.py:40-42 | the prompt splits into the stem, a blank line, each presented option in presented order, and a final empty line |
| Scorer.PrepareObjective | cab_benchmark/scorer.py:23-50 | a missing "options" or "correct_answer" raises `KeyError`; an answer that is not one character raises; on success the metadata keeps the original letter, a one-character new letter and the presented options, and the prompt is built from those options |
| Scorer.PreparedOptions | cab_benchmark/scorer.py:25-48 | the presented options are a permutation of the input; without shuffling they and the letter are unchanged; with shuffling the new letter indexes the first presented option whose text is the originally correct option's text |
| Scorer.PrepareObjectiveSucceeds | cab_benchmark/scorer.py:25-36 | with the keys present, preparation succeeds exactly when the answer is one character naming an index inside the option list |
| Scorer.FirstChoice | cab_benchmark/scorer.py:63-67 | none exactly when no character is one of A-D; otherwise the first such character |
| Scorer.ExtractAnswer | cab_benchmark/scorer.py:60-67 | the extracted character, if any, is one of A-D and occurs in the upper-cased reply; `ExtractIgnoresStrip` gives its exact value |
| Scorer.ExtractIgnoresStrip | cab_benchmark/scorer.py:60-67 | stripping the reply never changes the extracted letter |
| Scorer.ExtractSingleLetter | cab_benchmark/scorer.py:60-67 | a reply consisting of one letter A-D, in either case, extracts that letter |
| Scorer.NoLetterNoAnswer | cab_benchmark/scorer.py:60-67 | a reply with no character that upper-cases to A-D extracts nothing |
| Scorer.TheAnswerIsExtractsA | cab_benchmark/scorer.py:60-67 | "The answer is X" extracts A for every X in A-D |
| Scorer.LowerAFirst | cab_benchmark/scorer.py:60-67 | after a prefix naming no letter, a lower-case "a" is extracted as A whatever follows |
| Scorer.ScoreObjective | cab_benchmark/scorer.py:52-76 | the expected letter is the metadata's, else the question's, and a missing "correct_answer" raises even when metadata is given; the score is 1.0 iff the extracted letter equals it, else 0.0; an expected letter outside A-D always scores 0.0 |
| Scorer.CorrectLetterScoresOne | cab_benchmark/scorer.py:52-71 | for either setting of `randomize_options` and any number of options, a one-letter reply in A-D scores 1.0 exactly when it is the letter `prepare_question` reports |
| Scorer.PreparedLetterScoresOne | cab_benchmark/scorer.py:29-71 | round trip: with at most four options (and, unshuffled, a key in A-D) the reported letter is one of A-D, and a reply of exactly that letter scores 1.0 |
| Scorer.PrepareSubjective | cab_benchmark/scorer.py:94-96 | the scenario verbatim, or `KeyError("scenario")` |
| Scorer.JudgePrompt | cab_benchmark/scorer.py:98-138 | the judge prompt's length is that of the fixed text plus the four fields; where each field sits is `JudgePromptFields` |
| Scorer.JudgePromptFields | cab_benchmark/scorer.py:100-112 | the scenario, rubric focus, tradition and reply, and each fixed heading between them, read back from the judge prompt at their own offsets |
| Scorer.JudgePromptEmbedsResponse | cab_benchmark/scorer.py:111-112 | the reply can be read back from its fixed position in the judge prompt |
| Scorer.JudgePromptInjective | cab_benchmark/scorer.py:98-138 | two different replies never yield the same judge prompt |
| Scorer.Clamp | cab_benchmark/scorer.py:150 | `max(1, min(5, d))` lies in 1-5 and leaves 1-5 unchanged |
| Scorer.LineScore | cab_benchmark/scorer.py:147-152 | only a line starting with "SCORE:" sets a score, and the score it sets lies in 1-5 |
| Scorer.LineJustification | cab_benchmark/scorer.py:153-154 | only a line starting with "JUSTIFICATION:" and not with "SCORE:" sets the justification |
| Scorer.ParseJudgeResponse | cab_benchmark/scorer.py:140-156 | the parsed score always lies in 1-5 (parsing never fails) |
| Scorer.LastScoreWins | cab_benchmark/scorer.py:146-152 | the last line that sets a score decides the score |
| Scorer.ParseLines | cab_benchmark/scorer.py:143-154 | the score lies in 1-5 and is either the default 3 or the score some line sets; the justification is either empty or the text some line sets |
| Scorer.DefaultScore | cab_benchmark/scorer.py:143-152 | with no line setting a score, the score is 3 |
| Scorer.LastJustificationWins | cab_benchmark/scorer.py:153-154 | the last "JUSTIFICATION:" line decides the justification |
| Scorer.DefaultJustification | cab_benchmark/scorer.py:144-154 | with no "JUSTIFICATION:" line, the justification is empty |
| Scorer.ScoreLineReadsDigit | cab_benchmark/scorer.py:147-150 | any line "SCORE:" + rest, with no further "SCORE:" in rest, whose stripped rest starts with a digit d sets the score to d clamped to 1-5 (0 reads as 1, 6-9 as 5), whatever the earlier lines set |
| Scorer.ScoreLineIgnoresNonDigit | cab_benchmark/scorer.py:147-152 | any line "SCORE:" + rest, with no further "SCORE:" in rest, whose stripped rest is empty or starts with a non-digit (so `int` or the index raises) leaves the score the earlier lines set |
| Text.RemoveAllAbsent | cab_benchmark/scorer.py:149 | `replace(p, "")` leaves a string without `p` unchanged and drops a leading `p` |
| Scorer.Verdicts | cab_benchmark/scorer.py:163-172 | the i-th judge's parsed reply to the one shared judge prompt, for each of the n judges in order |
| Scorer.UpperMedian | cab_benchmark/scorer.py:175-176 | the median is the element at `n // 2` of the sorted scores: one of the scores, no smaller than those before it and no larger than those after it |
| Scorer.ScoreSubjective | cab_benchmark/scorer.py:158-187 | no judges gives `IndexError` before any key is read; a missing scenario or rubric focus raises `KeyError`; otherwise there is one raw score per judge and the score is a quarter step of [0, 1] |
| Scorer.PanelReport | cab_benchmark/scorer.py:160-187 | the raw scores are the parsed scores sorted ascending; the median is the one at `n // 2`, lies in 1-5 and satisfies `score * 4 + 1 == median`; the justifications stay in judge order |
| Scorer.QuarterOf | cab_benchmark/scorer.py:179 | `(m - 1) / 4` for m in 1-5 is one of 0, 0.25, 0.5, 0.75, 1 and maps back by `* 4 + 1` |
| Scorer.UnanimousPanel | cab_benchmark/scorer.py:174-179 | when every judge gives score s, the panel score is `(s - 1) / 4` |
| Text.StripParts | cab_benchmark/scorer.py:60 | `strip()` removes only whitespace and leaves text that neither starts nor ends with whitespace |
| Text.JoinSplit | cab_benchmark/scorer.py:142 | joining the pieces of `split("\n")` with newlines gives back the text |
| Text.SplitJoin | cab_benchmark/scorer.py:142 | splitting newline-joined lines that hold no newline gives back the lines |
| Text.DigitValue | cab_benchmark/scorer.py:149 | `int(c)` of one character succeeds exactly for a digit, with its value |
| Text.Strip | cab_benchmark/scorer.py:60 | `strip()` gives a piece of the text, taken where the leading whitespace ends, that neither starts nor ends with whitespace |
| Text.Upper | cab_benchmark/scorer.py:60 | `upper()` is at least as long as the text and at most twice as long; without U+1E9A it keeps every position, each character mapped to its upper case |
| Text.Split | cab_benchmark/scorer.py:142 | `split("\n")` gives at least one piece and no piece holds the separator; `JoinSplit` and `SplitJoin` make it the inverse of joining |
| Text.RemoveAll | cab_benchmark/scorer.py:149 | `replace(p, "")` never lengthens the text; what it leaves is stated by `RemoveAllAbsent` |
| Shuffling.Shuffle | cab_benchmark/scorer.py:33 | every draw sequence shuffles the options into a permutation of themselves |
| Sorting.SortAscending | cab_benchmark/scorer.py:175 | `judge_scores.sort()` returns an ascending permutation of the scores |
| Sorting.AscendingUnique | cab_benchmark/scorer.py:175 | two ascending permutations of the same scores are equal, so the sort result is determined |
| Sorting.RankDescending | cab_benchmark/aggregator.py:129 | `sort(key=score, reverse=True)` gives a non-increasing permutation that keeps entries with equal scores in input order (stable) |
| Aggregator.ArithmeticMean | cab_benchmark/aggregator.py:23-27 | 0 for no scores; otherwise the mean times the count is the sum |
| Aggregator.ArithmeticMeanBounds | cab_benchmark/aggregator.py:23-27 | the mean of scores in [lo, hi] lies in [lo, hi] |
| Aggregator.Positives | cab_benchmark/aggregator.py:14 | the kept scores are exactly the positive ones |
| Aggregator.GeometricMean | cab_benchmark/aggregator.py:8-20 | 0 when the list is empty or has no positive entry |
| Aggregator.GeometricMeanIsRoot | cab_benchmark/aggregator.py:14-20 | with some positive entry, the result is positive and its k-th power is the product of the k positive entries |
| Aggregator.GeometricMeanIgnoresNonPositive | cab_benchmark/aggregator.py:13-16 | appending a zero or negative score never changes the result |
| Aggregator.GeometricMeanOnlyPositives | cab_benchmark/aggregator.py:13-20 | two score lists with the same positive entries in the same order have the same geometric mean, wherever their other entries sit |
| Aggregator.GeometricMeanBounds | cab_benchmark/aggregator.py:8-20 | if the positive entries lie in [lo, hi], the result lies in [0, hi], and in [lo, hi] when some entry is positive |
| Aggregator.GeometricMeanOfConstant | cab_benchmark/aggregator.py:8-20 | the geometric mean of a constant positive list is that constant |
| Aggregator.GeometricAboveArithmetic | cab_benchmark/aggregator.py:8-20 | for the scores [0.0, 1.0] the geometric mean is 1.0 and the arithmetic mean 0.5, so the geometric mean can exceed the arithmetic one |
| Aggregator.ScoresOf | cab_benchmark/aggregator.py:56-58 | every result contributes its score in order, with a missing score counting as 0.0 |
| Aggregator.KeysOf | cab_benchmark/aggregator.py:60-67 | the key values collected are exactly those that some result carries |
| Aggregator.GroupSize | cab_benchmark/aggregator.py:60-67 | a bucket holds one score per result carrying its key |
| Aggregator.Groups | cab_benchmark/aggregator.py:77-83 | each group has the mean of its bucket's scores and the bucket's size as count |
| Aggregator.Mean | cab_benchmark/aggregator.py:48 | 0.0 for no scores; with a method other than "geometric", mean × count equals the sum; with "geometric", 0.0 when no score is positive |
| Aggregator.Breakdown | cab_benchmark/aggregator.py:56-104 | one group per distinct key value, each holding the chosen mean of the scores that carry its key and their number |
| Aggregator.BreakdownKeys | cab_benchmark/aggregator.py:56-104 | a breakdown has one group per key value carried by some result, no key twice, and no empty group |
| Aggregator.BreakdownCountsSum | cab_benchmark/aggregator.py:60-104 | the counts of a breakdown add up to the number of results carrying the key, which is all results when every result carries it |
| Aggregator.GroupsPartition | cab_benchmark/aggregator.py:56-67 | when every result carries the key, the buckets' sums add up to the sum of all scores, so each score lands in exactly one bucket |
| Aggregator.ArithmeticGroups | cab_benchmark/aggregator.py:77-83 | under the arithmetic mean, each group's score times its count is its bucket's sum |
| Aggregator.Aggregate | cab_benchmark/aggregator.py:30-106 | method and total are recorded; the overall score is the chosen mean of all scores; `by_mode` is always present; `by_dimension` and `cab_score` are present iff asked for, as is `by_tradition`; each breakdown groups by its key; `cab_score` is the geometric mean of the dimension scores, and dropping the non-positive ones first, as the code does, changes nothing |
| Aggregator.ArithmeticOverallIsWeighted | cab_benchmark/aggregator.py:70-83 | under the arithmetic mean, when every result names its dimension, the overall score is the count-weighted average of the dimension scores |
| Aggregator.WeightedBreakdown | cab_benchmark/aggregator.py:56-104 | under the arithmetic mean, the count-weighted total of a breakdown whose key every result carries is the sum of all scores |
| Aggregator.SummaryInUnitRange | cab_benchmark/aggregator.py:70-87 | with scores in [0, 1], the overall score, `cab_score` and every dimension score lie in [0, 1] |
| Aggregator.BreakdownInUnitRange | cab_benchmark/aggregator.py:76-104 | with scores in [0, 1], every group score of a breakdown lies in [0, 1] |
| Aggregator.MeanInUnitRange | cab_benchmark/aggregator.py:48 | whichever mean is chosen, scores in [0, 1] give a mean in [0, 1] |
| Aggregator.HeadlineEntries | cab_benchmark/aggregator.py:127-128 | one (name, score) pair per model in input order, scored by `cab_score` and otherwise `overall_score` |
| Aggregator.ScoreFor | cab_benchmark/aggregator.py:141-142 | a model has a score for a dimension iff its breakdown holds that dimension, and the score is that group's |
| Aggregator.AllDimensions | cab_benchmark/aggregator.py:133-136 | exactly the dimensions some model's breakdown holds |
| Aggregator.DimensionEntriesMembers | cab_benchmark/aggregator.py:139-142 | a dimension's entries are exactly the models that hold that dimension, with their scores |
| Aggregator.CompareModels | cab_benchmark/aggregator.py:109-146 | `models` lists the names in order; the overall ranking is a non-increasing, stable permutation of the headline entries; there is one dimension ranking per dimension seen, each a non-increasing, stable permutation of that dimension's entries; `tradition_rankings` stays empty |
| Aggregator.TopOfRanking | cab_benchmark/aggregator.py:127-130 | the first ranked entry is some model's, and no model has a higher headline score |
| Aggregator.DimensionRankingMembers | cab_benchmark/aggregator.py:138-144 | each dimension ranking is non-empty and lists exactly the models that hold the dimension |
| Loader.QuestionProblems | cab_benchmark/loader.py:70-93 | a question failing the schema yields exactly one problem, and its other checks are skipped; every problem carries the question's position |
| Loader.IdMatches | cab_benchmark/loader.py:12 | an id matches "^CAB-\d{4}$" exactly when it is "CAB-" and a number 0-9999 in four digits, possibly followed by one newline |
| Loader.IdNumber | cab_benchmark/loader.py:12 | an accepted id carries a number below 10000 whose four-digit form is the id without its newline |
| Loader.FormattedIdMatches | cab_benchmark/loader.py:12 | every four-digit id matches, with or without a final newline, and reads back as its own number |
| Loader.SchemaValid | cab_benchmark/loader.py:8-23 | a question passes the schema exactly when the five required keys are present, its id is a four-digit "CAB-" id, its mode is objective or subjective and its difficulty L1, L2 or L3 |
| Loader.ContentProblems | cab_benchmark/loader.py:74-90 | after the schema, at most four problems, none of them a schema violation |
| Loader.QuestionProblemsReported | cab_benchmark/loader.py:74-90 | the dimension, tradition, objective-fields and subjective-fields problems are each reported iff their check fails, independently of each other |
| Loader.QuestionProblemsEmpty | cab_benchmark/loader.py:70-93 | a question yields no problem iff it passes the schema and every check |
| Loader.ValidateFrom | cab_benchmark/loader.py:69-93 | problems are reported in question order (their positions never decrease), each with the position of a question that was checked |
| Loader.ValidateEmpty | cab_benchmark/loader.py:69-95 | the problem list is empty iff every question is fully valid |
| Loader.SchemaFailureIsOneProblem | cab_benchmark/loader.py:71-93 | a schema failure contributes exactly one problem before the later questions' problems |
| Loader.Conform | cab_benchmark/loader.py:8-23 | a question that passes the schema has its five required keys, kept unchanged |
| Loader.LoadDataset | cab_benchmark/loader.py:62-98 | a missing "questions" key raises `ValueError`; otherwise loading succeeds iff every question is fully valid, and a failure reports the first ten problems; on success the questions and version are unchanged |
| Loader.Stage | cab_benchmark/loader.py:111-121 | one filtering stage keeps exactly the questions passing its test, or all of them when its criterion is not given |
| Loader.FilterQuestions | cab_benchmark/loader.py:101-123 | a question is kept iff it is in the input and meets every non-empty criterion |
| Loader.FilterQuestionsIsOnePass | cab_benchmark/loader.py:109-123 | the four stages together equal one order-preserving filter by all the criteria |
| Loader.FilterQuestionsIdempotent | cab_benchmark/loader.py:101-123 | filtering twice with the same criteria is filtering once |
| Loader.FilterNothing | cab_benchmark/loader.py:109-123 | with no criterion given (or every criterion empty), the questions are returned unchanged |
| Loader.Tally | cab_benchmark/loader.py:141-145 | the reference tally: a map with a key for exactly the values seen, which the counting loop of `get_statistics` is proved equal to (`TallyIsCounts`, `GetStatistics`) |
| Loader.GetStatistics | cab_benchmark/loader.py:126-153 | the run succeeds iff every question has a known mode and difficulty, and otherwise reports the first that does not; `total` is the question count; dimensions and traditions are tallied; modes and difficulties are counted over their fixed keys |
| Loader.KnownKeys | cab_benchmark/loader.py:134-135 | the mode and difficulty counters keep exactly their fixed keys, which start at 0 |
| Loader.CountsOfCounts | cab_benchmark/loader.py:138-151 | after the loop every counter holds, for each key, the number of questions with that value |
| Loader.TallyIsCounts | cab_benchmark/loader.py:141 | a counter holding the occurrence count of exactly the values seen is the tally of those values |
| Loader.StatisticsCountsSum | cab_benchmark/loader.py:126-153 | the counts of each grouping add up to the number of questions |
| Evaluator.EvaluateObjective | cab_benchmark/evaluator.py:163-174 | preparation errors propagate; otherwise the reply is the model's answer to the prepared prompt, scored against the letter from that same preparation, with score 1.0 iff the extracted letter is that letter and 0.0 otherwise; the report records the reply, the extracted letter, the correct letter and a correctness flag that holds exactly when the score is 1.0, and it is the objective scorer's own report for that reply and metadata |
| Evaluator.EvaluateSubjective | cab_benchmark/evaluator.py:180-190 | a missing scenario raises first, then an empty panel, then a missing rubric focus; otherwise the model answers the scenario, and the score and details are the panel's `ScoreSubjective` result for that answer, a quarter step of [0, 1] |
| Evaluator.EvaluateQuestion | cab_benchmark/evaluator.py:153-192 | the result copies id, dimension, tradition, difficulty and mode from the question and has a score in [0, 1]; the run stops with the "not configured" `ValueError` iff the mode is not "objective" and there is no judge |
| Evaluator.Truncate | cab_benchmark/evaluator.py:111-112 | the result is a prefix; 0 or no limit truncates nothing; a positive limit keeps `min(limit, n)` questions and a negative one drops that many from the end |
| Evaluator.SelectionSound | cab_benchmark/evaluator.py:104-112 | every evaluated question is in the dataset and meets the filters, and without a limit every such question is evaluated |
| Evaluator.AsScored | cab_benchmark/evaluator.py:126 | the aggregator reads each result's score, dimension, tradition and mode |
| Evaluator.RunAll | cab_benchmark/evaluator.py:118-123 | the loop succeeds iff every step does, giving one result per position in order; otherwise it fails with the first failing step's error |
| Evaluator.EvaluateSelected | cab_benchmark/evaluator.py:118-123 | one result per selected question in order, each the question's own evaluation with a score in [0, 1]; otherwise the first failing question's error |
| Evaluator.Evaluate | cab_benchmark/evaluator.py:76-151 | a load error propagates; the run succeeds iff every selected question does, and otherwise reports the first failure; on success the metadata records version, count and filters, the results match the questions one for one, the summary is `aggregate_scores` with its defaults over those results, and its total equals the question count; if `root` is a true root, the overall and CAB scores lie in [0, 1] |
| Evaluator.QuickEvaluate | cab_benchmark/evaluator.py:195-216 | `evaluate` with default settings and only the mode filter: load errors propagate; the run succeeds iff every selected question evaluates, and then reports one result per selected question in order with the run metadata; restricted to objective questions it never fails for want of a judge; a successful run evaluated objective questions only; the summary uses the geometric mean |
| Evaluator.QuickSelection | cab_benchmark/evaluator.py:213-216 | with `objective_only` the run selects exactly the dataset's objective questions in dataset order, and without it every question |

## Left out

- Reading the dataset file, JSON parsing, `FileNotFoundError`, the results file and `json.dump` are not modelled, because they are I/O. The model starts from the parsed document.
- The `jsonschema` library is not modelled. Its constraints are stated directly: required keys, id pattern and enums. A JSON value of the wrong type, say a number where a string is expected, cannot be represented. A schema failure is one problem without jsonschema's message text.
- Validation problems are kept as a list of structured problems rather than formatted message lines.
- `random.shuffle` draws from a global generator. The draws are a parameter, one sequence per question position. Draw k is taken modulo the bound, and is 0 once the sequence runs out.
- `math.log`/`math.exp` and floating-point rounding are replaced:
  - Scores are exact reals.
  - The geometric mean's `exp(mean(log))` is the parameter `root`.
  - Properties that need it to be a true root assume `Aggregator.IsRoot(root)`.
- Aggregator.GeometricMean: it states only the zero cases in its own contract, because the value for positive input depends on `root`. `GeometricMeanIsRoot` and `GeometricMeanBounds` state the rest under `IsRoot`.
- The judge API calls, the Anthropic and OpenAI subclasses, `judge_model`, `temperature`, and exceptions a judge raises are not modelled, because they are network calls. A judge is a function from (seat, prompt) to a reply, so its replies depend on nothing else.
- Judge-client detection by module name is not modelled, because it is runtime type inspection. `Config.judge` is present exactly when a recognised client was given.
- The model under test is a pure function, so it has no state between calls.
- The rubric text of the judge prompt is a shortened fixed text. Only the embedding of the four fields is modelled.
- Text.Upper: it upper-cases ASCII letters and U+1E9A only. These are the only characters whose upper case contains A-D. Other characters are kept, since they cannot change the extracted letter.
- Text.DigitValue: it accepts only ASCII digits. Python's `int` also accepts other Unicode decimal digits.
- Scorer.ScoreLineReadsDigit: it is stated for a remainder with no further "SCORE:". `LineScore` itself removes every occurrence, as `replace` does, but no lemma spells out the reading of such a line.
- Scorer.ScoreLineIgnoresNonDigit: the same scope as `ScoreLineReadsDigit`.
- Loader.IdMatches: `\d` in the id pattern is an ASCII digit only. Python's `re` also accepts every other Unicode decimal digit, such as "CAB-١٢٣٤" in Arabic-Indic digits. That set depends on the Unicode version of the Python build, so it is not tabulated.
- Loader.QuestionProblems: it reports a schema violation for an id whose four digits are not all ASCII, which Python accepts (see `Loader.IdMatches`).
- Loader.LoadDataset: it rejects a dataset with such an id, which Python loads (see `Loader.IdMatches`).
- `chr` of a surrogate code point is a valid Python string but not a Dafny `char`. Preparing it is reported as `SurrogateLetter`. That needs more than 55,000 options.
- `compare_models` falls back to 0 when `overall_score` is missing. That case is not modelled, because a `Summary` always has an overall score.
- The order of the dimension rankings is Python set iteration order, so the rankings are a map.
- The run's timestamp, `tqdm` progress, `verbose` printing and `output_path` are not modelled.
- `cli.py`, `__init__.py` and the examples are not modelled. They are command-line and demonstration plumbing.

=== FILE: aggregator.dfy ===
/**
 Score aggregation (cab_benchmark/aggregator.py): the two means, the
 per-dimension, per-tradition and per-mode breakdowns of a run, the
 headline CAB score, and the ranking of several models.
 */
module Aggregator {
  import opened Base
  import opened Seqs
  import opened Sorting

  // ---------------------------------------------------------------------
  // The means
  // ---------------------------------------------------------------------

  /** `arithmetic_mean`: 0.0 for no scores, otherwise the sum over the count. */
  function ArithmeticMean(xs: seq<real>): (m: real)
    ensures |xs| == 0 ==> m == 0.0
    ensures m * |xs| as real == Sum(xs)
  {
    if |xs| == 0 then 0.0 else Sum(xs) / |xs| as real
  }

  /** The mean of scores in [lo, hi] lies in [lo, hi]. */
  lemma ArithmeticMeanBounds(xs: seq<real>, lo: real, hi: real)
    requires |xs| > 0
    requires forall i :: 0 <= i < |xs| ==> lo <= xs[i] <= hi
    ensures lo <= ArithmeticMean(xs) <= hi
  {
    SumBounds(xs, lo, hi);
    var n := |xs| as real;
    var m := ArithmeticMean(xs);
    if m < lo {
      MulStrict(m, lo, n);
    }
    if m > hi {
      MulStrict(hi, m, n);
    }
  }

  lemma MulMonotone(a: real, b: real, c: real)
    requires a <= b && 0.0 <= c
    ensures a * c <= b * c
  {
  }

  lemma MulBoth(a: real, b: real, c: real, d: real)
    requires 0.0 <= a <= b && 0.0 <= c <= d
    ensures a * c <= b * d
  {
    MulMonotone(a, b, c);
    assert b * c <= b * d;
  }

  lemma MulStrict(a: real, b: real, c: real)
    requires a < b && 0.0 < c
    ensures a * c < b * c
  {
  }

  predicate IsPositive(x: real) {
    x > 0.0
  }

  /** The scores `geometric_mean` keeps: the positive ones, in order. */
  function Positives(xs: seq<real>): (ps: seq<real>)
    ensures forall x :: x in ps <==> x in xs && x > 0.0
  {
    Filter(xs, IsPositive)
  }

  function Power(x: real, n: nat): real {
    if n == 0 then 1.0 else x * Power(x, n - 1)
  }

  function Product(xs: seq<real>): real {
    if |xs| == 0 then 1.0 else xs[0] * Product(xs[1..])
  }

  ghost predicate AllPositive(xs: seq<real>) {
    forall i :: 0 <= i < |xs| ==> xs[i] > 0.0
  }

  /**
   `root` computes what `exp(sum(log(s)) / n)` denotes for a non-empty list
   of positive numbers: the positive number whose n-th power is their product.
   */
  ghost predicate IsRoot(root: seq<real> -> real) {
    forall ps :: |ps| > 0 && AllPositive(ps) ==> root(ps) > 0.0 && Power(root(ps), |ps|) == Product(ps)
  }

  /**
   `geometric_mean`: 0.0 for no scores or no positive score; otherwise the
   geometric mean of the positive scores, computed by `root` (standing for
   `exp(sum(log(s)) / n)`). Scores that are zero or negative are dropped.
   */
  function GeometricMean(xs: seq<real>, root: seq<real> -> real): (g: real)
    ensures (forall i :: 0 <= i < |xs| ==> xs[i] <= 0.0) ==> g == 0.0
  {
    var ps := Positives(xs);
    if |xs| == 0 then 0.0
    else if |ps| == 0 then 0.0
    else
      assert ps[0] in xs;
      root(ps)
  }

  /** With some positive score, the geometric mean is positive and its n-th power is the product of the n positive scores. */
  lemma GeometricMeanIsRoot(xs: seq<real>, root: seq<real> -> real)
    requires IsRoot(root)
    requires exists i :: 0 <= i < |xs| && xs[i] > 0.0
    ensures var ps := Positives(xs);
      var g := GeometricMean(xs, root);
      |ps| > 0 && g > 0.0 && Power(g, |ps|) == Product(ps)
  {
    var i :| 0 <= i < |xs| && xs[i] > 0.0;
    var ps := Positives(xs);
    assert xs[i] in ps;
    assert AllPositive(ps) by {
      forall j | 0 <= j < |ps| ensures ps[j] > 0.0 {
        assert ps[j] in ps;
      }
    }
  }

  /** A score that is not positive leaves the geometric mean unchanged: zeros are not penalised. */
  lemma GeometricMeanIgnoresNonPositive(xs: seq<real>, x: real, root: seq<real> -> real)
    requires x <= 0.0
    ensures GeometricMean(xs + [x], root) == GeometricMean(xs, root)
  {
    FilterAppend(xs, [x], IsPositive);
    assert Filter([x], IsPositive) == [];
    assert Positives(xs + [x]) == Positives(xs);
  }

  /** The geometric mean depends only on the positive scores, in order, wherever the others sit. */
  lemma GeometricMeanOnlyPositives(xs: seq<real>, ys: seq<real>, root: seq<real> -> real)
    requires Positives(xs) == Positives(ys)
    ensures GeometricMean(xs, root) == GeometricMean(ys, root)
  {
  }

  /** If the positive scores lie in [lo, hi] (with 0 <= lo), so does their geometric mean. */
  lemma GeometricMeanBounds(xs: seq<real>, root: seq<real> -> real, lo: real, hi: real)
    requires IsRoot(root)
    requires 0.0 <= lo <= hi
    requires forall i :: 0 <= i < |xs| && xs[i] > 0.0 ==> lo <= xs[i] <= hi
    ensures 0.0 <= GeometricMean(xs, root) <= hi
    ensures (exists i :: 0 <= i < |xs| && xs[i] > 0.0) ==> lo <= GeometricMean(xs, root)
  {
    if exists i :: 0 <= i < |xs| && xs[i] > 0.0 {
      GeometricMeanIsRoot(xs, root);
      var ps := Positives(xs);
      var g := GeometricMean(xs, root);
      var n := |ps|;
      forall j | 0 <= j < n ensures lo <= ps[j] <= hi {
        assert ps[j] in xs;
      }
      ProductBounds(ps, lo, hi);
      if g > hi {
        PowerStrict(hi, g, n);
      }
      if g < lo {
        PowerStrict(g, lo, n);
      }
    }
  }

  /** When every positive score is the same value `c`, the geometric mean is `c`. */
  lemma GeometricMeanOfConstant(xs: seq<real>, root: seq<real> -> real, c: real)
    requires IsRoot(root)
    requires c > 0.0
    requires |xs| > 0 && forall i :: 0 <= i < |xs| ==> xs[i] == c
    ensures GeometricMean(xs, root) == c
  {
    GeometricMeanBounds(xs, root, c, c);
    assert xs[0] > 0.0;
  }

  /**
   Because the zeros are dropped, the geometric mean of the scores can
   exceed their arithmetic mean: for [0.0, 1.0] it is 1.0 against 0.5.
   */
  lemma GeometricAboveArithmetic(root: seq<real> -> real)
    requires IsRoot(root)
    ensures ArithmeticMean([0.0, 1.0]) == 0.5
    ensures GeometricMean([0.0, 1.0], root) == 1.0
    ensures GeometricMean([0.0, 1.0], root) > ArithmeticMean([0.0, 1.0])
  {
    assert Positives([0.0, 1.0]) == Positives([1.0]) == [1.0];
    GeometricMeanOnlyPositives([0.0, 1.0], [1.0], root);
    GeometricMeanOfConstant([1.0], root, 1.0);
  }

  lemma {:induction false} PowerNonNegative(x: real, n: nat)
    requires 0.0 <= x
    ensures 0.0 <= Power(x, n)
  {
    if n > 0 {
      PowerNonNegative(x, n - 1);
      MulMonotone(0.0, x, Power(x, n - 1));
    }
  }

  lemma {:induction false} PowerStrict(a: real, b: real, n: nat)
    requires 0.0 <= a < b
    requires n > 0
    ensures Power(a, n) < Power(b, n)
  {
    if n == 1 {
      assert Power(a, 0) == 1.0 && Power(b, 0) == 1.0;
    } else {
      PowerStrict(a, b, n - 1);
      PowerNonNegative(a, n - 1);
      MulMonotone(a, b, Power(a, n - 1));
      MulStrict(Power(a, n - 1), Power(b, n - 1), b);
    }
  }

  /** A product of n factors in [lo, hi] lies between lo^n and hi^n. */
  lemma ProductBounds(xs: seq<real>, lo: real, hi: real)
    requires 0.0 <= lo
    requires forall i :: 0 <= i < |xs| ==> lo <= xs[i] <= hi
    ensures Power(lo, |xs|) <= Product(xs) <= Power(hi, |xs|)
  {
    ProductAtLeast(xs, lo);
    ProductAtMost(xs, lo, hi);
  }

  lemma {:induction false} ProductAtLeast(xs: seq<real>, lo: real)
    requires 0.0 <= lo
    requires forall i :: 0 <= i < |xs| ==> lo <= xs[i]
    ensures Power(lo, |xs|) <= Product(xs)
  {
    if |xs| > 0 {
      var t := xs[1..];
      assert forall i :: 0 <= i < |t| ==> t[i] == xs[i + 1];
      ProductAtLeast(t, lo);
      PowerNonNegative(lo, |t|);
      MulBoth(lo, xs[0], Power(lo, |t|), Product(t));
    }
  }

  lemma {:induction false} ProductAtMost(xs: seq<real>, lo: real, hi: real)
    requires 0.0 <= lo
    requires forall i :: 0 <= i < |xs| ==> lo <= xs[i] <= hi
    ensures 0.0 <= Product(xs) <= Power(hi, |xs|)
  {
    if |xs| > 0 {
      var t := xs[1..];
      assert forall i :: 0 <= i < |t| ==> t[i] == xs[i + 1];
      ProductAtMost(t, lo, hi);
      MulBoth(xs[0], hi, Product(t), Power(hi, |t|));
      MulMonotone(0.0, xs[0], Product(t));
    }
  }

  // ---------------------------------------------------------------------
  // Breakdowns
  // ---------------------------------------------------------------------

  /** One scored result as `aggregate_scores` reads it: any key may be absent. */
  datatype ScoredResult = ScoredResult(
    score: Option<real>,
    dimension: Option<string>,
    tradition: Option<string>,
    scoringMode: Option<string>)

  /** The three keys results are grouped by. */
  datatype Field = DimensionKey | TraditionKey | ModeKey

  function KeyOf(r: ScoredResult, f: Field): Option<string> {
    match f
    case DimensionKey => r.dimension
    case TraditionKey => r.tradition
    case ModeKey => r.scoringMode
  }

  /** `r.get("score", 0.0)`. */
  function ScoreOf(r: ScoredResult): real {
    r.score.GetOr(0.0)
  }

  /** The scores of all results, in order. */
  function ScoresOf(rs: seq<ScoredResult>): (s: seq<real>)
    ensures |s| == |rs|
    ensures forall i :: 0 <= i < |rs| ==> s[i] == ScoreOf(rs[i])
  {
    seq(|rs|, i requires 0 <= i < |rs| => ScoreOf(rs[i]))
  }

  /** The values of key `f` among the results that have it, in result order. */
  function KeysOf(rs: seq<ScoredResult>, f: Field): (ks: seq<string>)
    ensures forall k :: k in ks <==> exists j :: 0 <= j < |rs| && KeyOf(rs[j], f) == Some(k)
  {
    if |rs| == 0 then []
    else
      var rest := KeysOf(rs[1..], f);
      assert forall k :: ((exists j :: 0 <= j < |rs| - 1 && KeyOf(rs[1..][j], f) == Some(k))
        ==> exists j :: 0 <= j < |rs| && KeyOf(rs[j], f) == Some(k)) by {
        forall k | exists j :: 0 <= j < |rs| - 1 && KeyOf(rs[1..][j], f) == Some(k)
          ensures exists j :: 0 <= j < |rs| && KeyOf(rs[j], f) == Some(k) {
          var j :| 0 <= j < |rs| - 1 && KeyOf(rs[1..][j], f) == Some(k);
          assert KeyOf(rs[j + 1], f) == Some(k);
        }
      }
      assert forall k :: ((exists j :: 0 <= j < |rs| && KeyOf(rs[j], f) == Some(k)) && KeyOf(rs[0], f) != Some(k)
        ==> exists j :: 0 <= j < |rs| - 1 && KeyOf(rs[1..][j], f) == Some(k)) by {
        forall k | (exists j :: 0 <= j < |rs| && KeyOf(rs[j], f) == Some(k)) && KeyOf(rs[0], f) != Some(k)
          ensures exists j :: 0 <= j < |rs| - 1 && KeyOf(rs[1..][j], f) == Some(k) {
          var j :| 0 <= j < |rs| && KeyOf(rs[j], f) == Some(k);
          assert KeyOf(rs[1..][j - 1], f) == Some(k);
        }
      }
      (if KeyOf(rs[0], f).Some? then [KeyOf(rs[0], f).value] else []) + rest
  }

  /** The list `aggregate_scores` builds under key value `k`: the scores of the results holding it, in order. */
  function GroupScores(rs: seq<ScoredResult>, f: Field, k: string): (s: seq<real>)
    ensures |s| <= |rs|
  {
    if |rs| == 0 then []
    else (if KeyOf(rs[0], f) == Some(k) then [ScoreOf(rs[0])] else []) + GroupScores(rs[1..], f, k)
  }

  /** A group holds one score per occurrence of its key. */
  lemma {:induction false} GroupSize(rs: seq<ScoredResult>, f: Field, k: string)
    ensures |GroupScores(rs, f, k)| == Occurrences(KeysOf(rs, f), k)
  {
    if |rs| > 0 {
      GroupSize(rs[1..], f, k);
      var head := if KeyOf(rs[0], f).Some? then [KeyOf(rs[0], f).value] else [];
      OccurrencesAppend(head, KeysOf(rs[1..], f), k);
      if KeyOf(rs[0], f).Some? {
        assert head[1..] == [];
      }
    }
  }

  /** How a list of scores is averaged: `geometric_mean` for "geometric", `arithmetic_mean` for any other method name. */
  function Mean(meanMethod: string, xs: seq<real>, root: seq<real> -> real): (m: real)
    ensures |xs| == 0 ==> m == 0.0
    ensures meanMethod != "geometric" ==> m * |xs| as real == Sum(xs)
    ensures meanMethod == "geometric" && (forall i :: 0 <= i < |xs| ==> xs[i] <= 0.0) ==> m == 0.0
  {
    if meanMethod == "geometric" then GeometricMean(xs, root) else ArithmeticMean(xs)
  }

  /** One entry of a breakdown: `{"score": mean, "count": n}` under its key. */
  datatype Group = Group(key: string, score: real, count: nat)

  /** The groups for the key values `ks`, in that order. */
  function Groups(rs: seq<ScoredResult>, f: Field, ks: seq<string>, meanMethod: string, root: seq<real> -> real)
    : (gs: seq<Group>)
    ensures |gs| == |ks|
    ensures forall i :: 0 <= i < |ks| ==>
      gs[i] == Group(ks[i], Mean(meanMethod, GroupScores(rs, f, ks[i]), root), |GroupScores(rs, f, ks[i])|)
  {
    seq(|ks|, i requires 0 <= i < |ks| =>
      Group(ks[i], Mean(meanMethod, GroupScores(rs, f, ks[i]), root), |GroupScores(rs, f, ks[i])|))
  }

  /**
   A breakdown (`by_dimension`, `by_tradition` or `by_mode`): one group per
   key value, in the order the values first appear among the results (the
   insertion order of the `defaultdict`).
   */
  function Breakdown(rs: seq<ScoredResult>, f: Field, meanMethod: string, root: seq<real> -> real): (gs: seq<Group>)
    ensures |gs| == |Distinct(KeysOf(rs, f))|
    ensures forall i :: 0 <= i < |gs| ==>
      var xs := GroupScores(rs, f, gs[i].key);
      gs[i].count == |xs| && gs[i].score == Mean(meanMethod, xs, root)
  {
    Groups(rs, f, Distinct(KeysOf(rs, f)), meanMethod, root)
  }

  /**
   A breakdown has exactly one group per key value that some result carries,
   and every group counts at least one result.
   */
  lemma BreakdownKeys(rs: seq<ScoredResult>, f: Field, meanMethod: string, root: seq<real> -> real)
    ensures var gs := Breakdown(rs, f, meanMethod, root);
      && (forall i, j :: 0 <= i < j < |gs| ==> gs[i].key != gs[j].key)
      && (forall k :: (exists i :: 0 <= i < |gs| && gs[i].key == k) <==> exists j :: 0 <= j < |rs| && KeyOf(rs[j], f) == Some(k))
      && (forall i :: 0 <= i < |gs| ==> gs[i].count > 0)
  {
    var ks := Distinct(KeysOf(rs, f));
    var gs := Breakdown(rs, f, meanMethod, root);
    forall k ensures (exists i :: 0 <= i < |gs| && gs[i].key == k) <==> k in ks {
      if k in ks {
        var i :| 0 <= i < |ks| && ks[i] == k;
        assert gs[i].key == k;
      }
    }
    forall i | 0 <= i < |gs| ensures gs[i].count > 0 {
      assert ks[i] in ks;
      GroupSize(rs, f, ks[i]);
    }
  }

  function TotalCount(gs: seq<Group>): nat {
    if |gs| == 0 then 0 else gs[0].count + TotalCount(gs[1..])
  }

  /** The counts of a breakdown add up to the number of results that carry the key. */
  lemma BreakdownCountsSum(rs: seq<ScoredResult>, f: Field, meanMethod: string, root: seq<real> -> real)
    ensures TotalCount(Breakdown(rs, f, meanMethod, root)) == |KeysOf(rs, f)|
    ensures (forall j :: 0 <= j < |rs| ==> KeyOf(rs[j], f).Some?) ==>
      TotalCount(Breakdown(rs, f, meanMethod, root)) == |rs|
  {
    var ks := Distinct(KeysOf(rs, f));
    GroupsCount(rs, f, ks, meanMethod, root);
    DistinctCountsSum(KeysOf(rs, f));
    KeysOfLength(rs, f);
  }

  lemma GroupsCount(rs: seq<ScoredResult>, f: Field, ks: seq<string>, meanMethod: string, root: seq<real> -> real)
    ensures TotalCount(Groups(rs, f, ks, meanMethod, root)) == SumOccurrences(ks, KeysOf(rs, f))
  {
    var gs := Groups(rs, f, ks, meanMethod, root);
    forall i | 0 <= i < |ks| ensures gs[i].count == Occurrences(KeysOf(rs, f), ks[i]) {
      GroupSize(rs, f, ks[i]);
    }
    CountPointwise(gs, KeysOf(rs, f), ks);
  }

  lemma {:induction false} CountPointwise(gs: seq<Group>, all: seq<string>, ks: seq<string>)
    requires |gs| == |ks|
    requires forall i :: 0 <= i < |ks| ==> gs[i].count == Occurrences(all, ks[i])
    ensures TotalCount(gs) == SumOccurrences(ks, all)
  {
    if |ks| > 0 {
      assert forall i :: 0 <= i < |ks| - 1 ==> gs[1..][i] == gs[i + 1] && ks[1..][i] == ks[i + 1];
      CountPointwise(gs[1..], all, ks[1..]);
    }
  }

  lemma {:induction false} KeysOfLength(rs: seq<ScoredResult>, f: Field)
    ensures |KeysOf(rs, f)| <= |rs|
    ensures (forall j :: 0 <= j < |rs| ==> KeyOf(rs[j], f).Some?) ==> |KeysOf(rs, f)| == |rs|
  {
    if |rs| > 0 {
      KeysOfLength(rs[1..], f);
      if forall j :: 0 <= j < |rs| ==> KeyOf(rs[j], f).Some? {
        assert forall j :: 0 <= j < |rs| - 1 ==> KeyOf(rs[1..][j], f).Some? by {
          forall j | 0 <= j < |rs| - 1 ensures KeyOf(rs[1..][j], f).Some? {
            assert rs[1..][j] == rs[j + 1];
          }
        }
      }
    }
  }

  /** The sum, over the key values `ks`, of the summed scores of their groups. */
  function GroupTotals(rs: seq<ScoredResult>, f: Field, ks: seq<string>): real {
    if |ks| == 0 then 0.0 else Sum(GroupScores(rs, f, ks[0])) + GroupTotals(rs, f, ks[1..])
  }

  /** `s` if `k` is one of `ks`, once per occurrence; 0 otherwise. */
  function Indicator(ks: seq<string>, k: string, s: real): real {
    if |ks| == 0 then 0.0 else (if ks[0] == k then s else 0.0) + Indicator(ks[1..], k, s)
  }

  lemma {:induction false} IndicatorOnce(ks: seq<string>, k: string, s: real)
    requires NoDuplicates(ks)
    ensures Indicator(ks, k, s) == if k in ks then s else 0.0
  {
    if |ks| > 0 {
      IndicatorOnce(ks[1..], k, s);
      if ks[0] == k {
        assert k !in ks[1..] by {
          forall j | 0 <= j < |ks| - 1 ensures ks[1..][j] != k {
            assert ks[1..][j] == ks[j + 1];
          }
        }
      } else {
        assert k in ks <==> k in ks[1..] by {
          assert ks == [ks[0]] + ks[1..];
        }
      }
    }
  }

  lemma {:induction false} GroupTotalsCons(r: ScoredResult, rest: seq<ScoredResult>, f: Field, ks: seq<string>)
    ensures GroupTotals([r] + rest, f, ks) ==
      (if KeyOf(r, f).Some? then Indicator(ks, KeyOf(r, f).value, ScoreOf(r)) else 0.0) + GroupTotals(rest, f, ks)
  {
    if |ks| > 0 {
      GroupTotalsCons(r, rest, f, ks[1..]);
      var rs := [r] + rest;
      assert rs[1..] == rest;
      var g := GroupScores(rs, f, ks[0]);
      if KeyOf(r, f) == Some(ks[0]) {
        assert g == [ScoreOf(r)] + GroupScores(rest, f, ks[0]);
        assert g[1..] == GroupScores(rest, f, ks[0]);
      } else {
        assert g == GroupScores(rest, f, ks[0]);
      }
    }
  }

  /**
   When every result carries a key value from the duplicate-free list `ks`,
   the groups for `ks` partition the scores: their totals add up to the sum
   of all scores.
   */
  lemma {:induction false} GroupsPartition(rs: seq<ScoredResult>, f: Field, ks: seq<string>)
    requires NoDuplicates(ks)
    requires forall j :: 0 <= j < |rs| ==> KeyOf(rs[j], f).Some? && KeyOf(rs[j], f).value in ks
    ensures GroupTotals(rs, f, ks) == Sum(ScoresOf(rs))
  {
    if |rs| == 0 {
      GroupTotalsNil(f, ks);
    } else {
      var rest := rs[1..];
      assert rs == [rs[0]] + rest;
      GroupTotalsCons(rs[0], rest, f, ks);
      IndicatorOnce(ks, KeyOf(rs[0], f).value, ScoreOf(rs[0]));
      assert forall j :: 0 <= j < |rest| ==> KeyOf(rest[j], f).Some? && KeyOf(rest[j], f).value in ks by {
        forall j | 0 <= j < |rest| ensures KeyOf(rest[j], f).Some? && KeyOf(rest[j], f).value in ks {
          assert rest[j] == rs[j + 1];
        }
      }
      GroupsPartition(rest, f, ks);
      assert ScoresOf(rs)[1..] == ScoresOf(rest);
    }
  }

  lemma {:induction false} GroupTotalsNil(f: Field, ks: seq<string>)
    ensures GroupTotals([], f, ks) == 0.0
  {
    if |ks| > 0 {
      GroupTotalsNil(f, ks[1..]);
    }
  }

  /** A score weighted by the number of results behind it. */
  function Weighted(score: real, count: nat): real {
    score * count as real
  }

  /** Each group's score times its count, summed: the count-weighted total of a breakdown. */
  function WeightedTotal(gs: seq<Group>): real {
    if |gs| == 0 then 0.0 else Weighted(gs[0].score, gs[0].count) + WeightedTotal(gs[1..])
  }

  /** Under the arithmetic mean, a group's score times its count is the sum of its scores. */
  lemma ArithmeticGroups(rs: seq<ScoredResult>, f: Field, ks: seq<string>, meanMethod: string, root: seq<real> -> real)
    requires meanMethod != "geometric"
    ensures WeightedTotal(Groups(rs, f, ks, meanMethod, root)) == GroupTotals(rs, f, ks)
  {
    var gs := Groups(rs, f, ks, meanMethod, root);
    forall i | 0 <= i < |ks| ensures Weighted(gs[i].score, gs[i].count) == Sum(GroupScores(rs, f, ks[i])) {
      var g := GroupScores(rs, f, ks[i]);
      assert gs[i].score == ArithmeticMean(g);
    }
    WeightedPointwise(gs, rs, f, ks);
  }

  lemma {:induction false} WeightedPointwise(gs: seq<Group>, rs: seq<ScoredResult>, f: Field, ks: seq<string>)
    requires |gs| == |ks|
    requires forall i :: 0 <= i < |ks| ==> Weighted(gs[i].score, gs[i].count) == Sum(GroupScores(rs, f, ks[i]))
    ensures WeightedTotal(gs) == GroupTotals(rs, f, ks)
  {
    if |ks| > 0 {
      assert forall i :: 0 <= i < |ks| - 1 ==> gs[1..][i] == gs[i + 1] && ks[1..][i] == ks[i + 1];
      WeightedPointwise(gs[1..], rs, f, ks[1..]);
    }
  }

  // ---------------------------------------------------------------------
  // aggregate_scores
  // ---------------------------------------------------------------------

  /** What `aggregate_scores` returns; a breakdown that was not asked for is absent. */
  datatype Summary = Summary(
    meanMethod: string,
    totalQuestions: nat,
    overallScore: real,
    byDimension: Option<seq<Group>>,
    cabScore: Option<real>,
    byTradition: Option<seq<Group>>,
    byMode: seq<Group>)

  /** The scores of the groups, in order. */
  function GroupScoreList(gs: seq<Group>): (s: seq<real>)
    ensures |s| == |gs| && forall i :: 0 <= i < |gs| ==> s[i] == gs[i].score
  {
    seq(|gs|, i requires 0 <= i < |gs| => gs[i].score)
  }

  /**
   `aggregate_scores`: the overall mean, and per-dimension, per-tradition and
   per-mode breakdowns with the chosen mean. The CAB score is the geometric
   mean of the dimension scores, whatever the meanMethod; the source drops the
   dimensions scoring 0 before taking it, which `geometric_mean` does anyway.
   */
  function Aggregate(rs: seq<ScoredResult>, meanMethod: string, byDimension: bool, byTradition: bool, root: seq<real> -> real)
    : (s: Summary)
    ensures s.meanMethod == meanMethod && s.totalQuestions == |rs|
    ensures s.overallScore == Mean(meanMethod, ScoresOf(rs), root)
    ensures s.byDimension.Some? <==> byDimension
    ensures s.cabScore.Some? <==> byDimension
    ensures s.byTradition.Some? <==> byTradition
    ensures byDimension ==>
      && s.byDimension.value == Breakdown(rs, DimensionKey, meanMethod, root)
      && s.cabScore.value == GeometricMean(GroupScoreList(s.byDimension.value), root)
    ensures byTradition ==> s.byTradition.value == Breakdown(rs, TraditionKey, meanMethod, root)
    ensures s.byMode == Breakdown(rs, ModeKey, meanMethod, root)
  {
    var dims := Breakdown(rs, DimensionKey, meanMethod, root);
    var dimMeans := Filter(GroupScoreList(dims), IsPositive);
    FilterIdempotent(GroupScoreList(dims), IsPositive);
    Summary(
      meanMethod, |rs|, Mean(meanMethod, ScoresOf(rs), root),
      if byDimension then Some(dims) else None,
      if byDimension then Some(GeometricMean(dimMeans, root)) else None,
      if byTradition then Some(Breakdown(rs, TraditionKey, meanMethod, root)) else None,
      Breakdown(rs, ModeKey, meanMethod, root))
  }

  /**
   Under the arithmetic mean, when every result names its dimension, the
   overall score is the count-weighted average of the dimension scores.
   */
  lemma ArithmeticOverallIsWeighted(rs: seq<ScoredResult>, meanMethod: string, byTradition: bool, root: seq<real> -> real)
    requires meanMethod != "geometric"
    requires forall j :: 0 <= j < |rs| ==> rs[j].dimension.Some?
    ensures var s := Aggregate(rs, meanMethod, true, byTradition, root);
      Weighted(s.overallScore, |rs|) == WeightedTotal(s.byDimension.value)
  {
    MeanIsWeighted(rs, meanMethod, root);
  }

  lemma MeanIsWeighted(rs: seq<ScoredResult>, meanMethod: string, root: seq<real> -> real)
    requires meanMethod != "geometric"
    requires forall j :: 0 <= j < |rs| ==> rs[j].dimension.Some?
    ensures Weighted(ArithmeticMean(ScoresOf(rs)), |rs|) == WeightedTotal(Breakdown(rs, DimensionKey, meanMethod, root))
  {
    assert forall j :: 0 <= j < |rs| ==> KeyOf(rs[j], DimensionKey).Some?;
    WeightedBreakdown(rs, DimensionKey, meanMethod, root);
    MeanTimesCount(rs);
  }

  lemma MeanTimesCount(rs: seq<ScoredResult>)
    ensures Weighted(ArithmeticMean(ScoresOf(rs)), |rs|) == Sum(ScoresOf(rs))
  {
    var xs := ScoresOf(rs);
    assert |xs| == |rs|;
  }

  /**
   Under the arithmetic mean, when every result carries key `f`, the
   count-weighted total of the breakdown is the sum of all scores.
   */
  lemma WeightedBreakdown(rs: seq<ScoredResult>, f: Field, meanMethod: string, root: seq<real> -> real)
    requires meanMethod != "geometric"
    requires forall j :: 0 <= j < |rs| ==> KeyOf(rs[j], f).Some?
    ensures WeightedTotal(Breakdown(rs, f, meanMethod, root)) == Sum(ScoresOf(rs))
  {
    var ks := Distinct(KeysOf(rs, f));
    ArithmeticGroups(rs, f, ks, meanMethod, root);
    KeysCovered(rs, f);
    GroupsPartition(rs, f, ks);
  }

  /** Every key value a result carries is one of the breakdown's keys. */
  lemma KeysCovered(rs: seq<ScoredResult>, f: Field)
    ensures forall j :: 0 <= j < |rs| && KeyOf(rs[j], f).Some? ==> KeyOf(rs[j], f).value in Distinct(KeysOf(rs, f))
  {
    forall j | 0 <= j < |rs| && KeyOf(rs[j], f).Some? ensures KeyOf(rs[j], f).value in Distinct(KeysOf(rs, f)) {
      assert KeyOf(rs[j], f).value in KeysOf(rs, f);
    }
  }

  /** With scores in [0, 1] and a faithful `root`, every mean the summary reports lies in [0, 1]. */
  lemma SummaryInUnitRange(rs: seq<ScoredResult>, meanMethod: string, byTradition: bool, root: seq<real> -> real)
    requires IsRoot(root)
    requires forall j :: 0 <= j < |rs| ==> 0.0 <= ScoreOf(rs[j]) <= 1.0
    ensures var s := Aggregate(rs, meanMethod, true, byTradition, root);
      && 0.0 <= s.overallScore <= 1.0
      && 0.0 <= s.cabScore.value <= 1.0
      && forall i :: 0 <= i < |s.byDimension.value| ==> 0.0 <= s.byDimension.value[i].score <= 1.0
  {
    var s := Aggregate(rs, meanMethod, true, byTradition, root);
    MeanInUnitRange(ScoresOf(rs), meanMethod, root);
    var gs := s.byDimension.value;
    BreakdownInUnitRange(rs, DimensionKey, meanMethod, root);
    GeometricMeanBounds(GroupScoreList(gs), root, 0.0, 1.0);
  }

  lemma BreakdownInUnitRange(rs: seq<ScoredResult>, f: Field, meanMethod: string, root: seq<real> -> real)
    requires IsRoot(root)
    requires forall j :: 0 <= j < |rs| ==> 0.0 <= ScoreOf(rs[j]) <= 1.0
    ensures var gs := Breakdown(rs, f, meanMethod, root);
      forall i :: 0 <= i < |gs| ==> 0.0 <= gs[i].score <= 1.0
  {
    var ks := Distinct(KeysOf(rs, f));
    var gs := Breakdown(rs, f, meanMethod, root);
    forall i | 0 <= i < |gs| ensures 0.0 <= gs[i].score <= 1.0 {
      GroupScoresIn(rs, f, ks[i]);
      MeanInUnitRange(GroupScores(rs, f, ks[i]), meanMethod, root);
    }
  }

  lemma MeanInUnitRange(xs: seq<real>, meanMethod: string, root: seq<real> -> real)
    requires IsRoot(root)
    requires forall i :: 0 <= i < |xs| ==> 0.0 <= xs[i] <= 1.0
    ensures 0.0 <= Mean(meanMethod, xs, root) <= 1.0
  {
    if meanMethod == "geometric" {
      GeometricMeanBounds(xs, root, 0.0, 1.0);
    } else if |xs| > 0 {
      ArithmeticMeanBounds(xs, 0.0, 1.0);
    }
  }

  lemma {:induction false} GroupScoresIn(rs: seq<ScoredResult>, f: Field, k: string)
    requires forall j :: 0 <= j < |rs| ==> 0.0 <= ScoreOf(rs[j]) <= 1.0
    ensures forall i :: 0 <= i < |GroupScores(rs, f, k)| ==> 0.0 <= GroupScores(rs, f, k)[i] <= 1.0
  {
    if |rs| > 0 {
      assert forall j :: 0 <= j < |rs| - 1 ==> rs[1..][j] == rs[j + 1];
      GroupScoresIn(rs[1..], f, k);
    }
  }

  // ---------------------------------------------------------------------
  // compare_models
  // ---------------------------------------------------------------------

  /** What `compare_models` returns; the tradition rankings are never filled in. */
  datatype Comparison = Comparison(
    models: seq<string>,
    overallRanking: seq<Entry>,
    dimensionRankings: map<string, seq<Entry>>,
    traditionRankings: map<string, seq<Entry>>)

  /** A model's headline score: its CAB score when present, else its overall score. */
  function Headline(s: Summary): real {
    s.cabScore.GetOr(s.overallScore)
  }

  /** The (name, headline score) pairs, in the models' order. */
  function HeadlineEntries(ms: seq<(string, Summary)>): (es: seq<Entry>)
    ensures |es| == |ms|
    ensures forall i :: 0 <= i < |ms| ==> es[i] == Entry(ms[i].0, Headline(ms[i].1))
  {
    seq(|ms|, i requires 0 <= i < |ms| => Entry(ms[i].0, Headline(ms[i].1)))
  }

  /** `by_dimension[dim]["score"]`, if the breakdown has `dim`. */
  function ScoreFor(gs: seq<Group>, k: string): (r: Option<real>)
    ensures r.Some? <==> exists i :: 0 <= i < |gs| && gs[i].key == k
    ensures r.Some? ==> exists i :: 0 <= i < |gs| && gs[i].key == k && gs[i].score == r.value
  {
    if |gs| == 0 then None
    else if gs[0].key == k then Some(gs[0].score)
    else
      var r := ScoreFor(gs[1..], k);
      assert forall i :: 1 <= i < |gs| ==> gs[i] == gs[1..][i - 1];
      r
  }

  /** The score model `s` has in dimension `d`, if it has a breakdown holding `d`. */
  function DimensionScore(s: Summary, d: string): Option<real> {
    if s.byDimension.Some? then ScoreFor(s.byDimension.value, d) else None
  }

  /** The dimensions any model's breakdown mentions. */
  function AllDimensions(ms: seq<(string, Summary)>): (ds: set<string>)
    ensures forall d :: d in ds <==> exists i :: 0 <= i < |ms| && DimensionScore(ms[i].1, d).Some?
  {
    if |ms| == 0 then {}
    else
      var rest := AllDimensions(ms[1..]);
      var here := if ms[0].1.byDimension.Some? then set g | g in ms[0].1.byDimension.value :: g.key else {};
      assert forall d :: d in here <==> DimensionScore(ms[0].1, d).Some? by {
        forall d ensures d in here <==> DimensionScore(ms[0].1, d).Some? {
          if DimensionScore(ms[0].1, d).Some? {
            var i :| 0 <= i < |ms[0].1.byDimension.value| && ms[0].1.byDimension.value[i].key == d;
            assert ms[0].1.byDimension.value[i] in ms[0].1.byDimension.value;
          }
        }
      }
      assert forall i :: 1 <= i < |ms| ==> ms[i] == ms[1..][i - 1];
      here + rest
  }

  /** The (name, score) pairs of the models that have dimension `d`, in the models' order. */
  function DimensionEntries(ms: seq<(string, Summary)>, d: string): (es: seq<Entry>)
    ensures |es| <= |ms|
  {
    if |ms| == 0 then []
    else
      var here := DimensionScore(ms[0].1, d);
      (if here.Some? then [Entry(ms[0].0, here.value)] else []) + DimensionEntries(ms[1..], d)
  }

  /** A model is listed for dimension `d` exactly when its breakdown has `d`, with its score there. */
  lemma {:induction false} DimensionEntriesMembers(ms: seq<(string, Summary)>, d: string)
    ensures forall i :: 0 <= i < |ms| && DimensionScore(ms[i].1, d).Some? ==>
      Entry(ms[i].0, DimensionScore(ms[i].1, d).value) in DimensionEntries(ms, d)
    ensures forall e :: e in DimensionEntries(ms, d) ==>
      exists i :: 0 <= i < |ms| && ms[i].0 == e.name && DimensionScore(ms[i].1, d) == Some(e.score)
  {
    if |ms| > 0 {
      DimensionEntriesMembers(ms[1..], d);
      var es := DimensionEntries(ms, d);
      forall i | 0 <= i < |ms| && DimensionScore(ms[i].1, d).Some?
        ensures Entry(ms[i].0, DimensionScore(ms[i].1, d).value) in es {
        if i > 0 {
          assert ms[i] == ms[1..][i - 1];
        }
      }
      forall e | e in es
        ensures exists i :: 0 <= i < |ms| && ms[i].0 == e.name && DimensionScore(ms[i].1, d) == Some(e.score) {
        if e !in DimensionEntries(ms[1..], d) {
          assert ms[0].0 == e.name && DimensionScore(ms[0].1, d) == Some(e.score);
        } else {
          var i :| 0 <= i < |ms| - 1 && ms[1..][i].0 == e.name && DimensionScore(ms[1..][i].1, d) == Some(e.score);
          assert ms[i + 1] == ms[1..][i];
        }
      }
    }
  }

  /**
   `compare_models`: the model names in order; the headline scores ranked by
   a stable descending sort; for every dimension any model reports, that
   dimension's scores ranked the same way. `tradition_rankings` stays empty.
   */
  function CompareModels(ms: seq<(string, Summary)>): (c: Comparison)
    ensures |c.models| == |ms| && forall i :: 0 <= i < |ms| ==> c.models[i] == ms[i].0
    ensures NonIncreasing(c.overallRanking)
    ensures multiset(c.overallRanking) == multiset(HeadlineEntries(ms))
    ensures forall v :: WithScore(c.overallRanking, v) == WithScore(HeadlineEntries(ms), v)
    ensures c.dimensionRankings.Keys == AllDimensions(ms)
    ensures forall d :: d in c.dimensionRankings ==>
      && NonIncreasing(c.dimensionRankings[d])
      && multiset(c.dimensionRankings[d]) == multiset(DimensionEntries(ms, d))
      && (forall v :: WithScore(c.dimensionRankings[d], v) == WithScore(DimensionEntries(ms, d), v))
    ensures c.traditionRankings == map[]
  {
    Comparison(
      seq(|ms|, i requires 0 <= i < |ms| => ms[i].0),
      RankDescending(HeadlineEntries(ms)),
      map d | d in AllDimensions(ms) :: RankDescending(DimensionEntries(ms, d)),
      map[])
  }

  /** The first model of the overall ranking has the highest headline score of all. */
  lemma TopOfRanking(ms: seq<(string, Summary)>)
    requires |ms| > 0
    ensures var top := CompareModels(ms).overallRanking[0];
      && (exists i :: 0 <= i < |ms| && top == Entry(ms[i].0, Headline(ms[i].1)))
      && forall i :: 0 <= i < |ms| ==> Headline(ms[i].1) <= top.score
  {
    var es := HeadlineEntries(ms);
    var r := CompareModels(ms).overallRanking;
    assert r[0] in multiset(es);
    forall i | 0 <= i < |ms| ensures Headline(ms[i].1) <= r[0].score {
      assert es[i] in multiset(r);
      var j :| 0 <= j < |r| && r[j] == es[i];
    }
  }

  /** Every dimension ranking lists exactly the models reporting that dimension. */
  lemma DimensionRankingMembers(ms: seq<(string, Summary)>, d: string)
    requires d in CompareModels(ms).dimensionRankings
    ensures var ranking := CompareModels(ms).dimensionRankings[d];
      && |ranking| > 0
      && (forall i :: 0 <= i < |ms| && DimensionScore(ms[i].1, d).Some? ==>
            Entry(ms[i].0, DimensionScore(ms[i].1, d).value) in ranking)
      && (forall e :: e in ranking ==>
            exists i :: 0 <= i < |ms| && ms[i].0 == e.name && DimensionScore(ms[i].1, d) == Some(e.score))
  {
    var ranking := CompareModels(ms).dimensionRankings[d];
    var es := DimensionEntries(ms, d);
    DimensionEntriesMembers(ms, d);
    assert forall e :: e in ranking <==> e in es by {
      forall e ensures e in ranking <==> e in es {
        assert e in ranking <==> e in multiset(ranking);
        assert e in es <==> e in multiset(es);
      }
    }
    var i :| 0 <= i < |ms| && DimensionScore(ms[i].1, d).Some?;
    assert Entry(ms[i].0, DimensionScore(ms[i].1, d).value) in ranking;
  }
}

=== FILE: base.dfy ===
/**
 Shared value types of the benchmark harness model: optional values, the
 outcome of an operation that can raise, and the Python exceptions the
 modelled code raises.
 */
module Base {

  /** A value that may be absent: a missing dict key or a Python `None`. */
  datatype Option<+T> = None | Some(value: T) {

    /** The value, or `default` when absent (Python's `d.get(key, default)`). */
    function GetOr(default: T): T {
      match this
      case Some(v) => v
      case None => default
    }
  }

  /** Either a value or the exception that the Python code would raise. */
  datatype Result<+T> = Ok(value: T) | Err(error: Error) {

    predicate IsFailure() {
      Err?
    }

    function PropagateFailure<U>(): Result<U>
      requires Err?
    {
      Err(error)
    }

    function Extract(): T
      requires Ok?
    {
      value
    }
  }

  /** The exceptions raised by the modelled code. */
  datatype Error =
    | KeyError(key: string)       // subscript of a dict key that is absent
    | IndexError                  // list subscript out of range
    | TypeError                   // `ord` of a string whose length is not 1
    | ValueError(reason: Reason)  // the `ValueError`s raised on purpose
    | SurrogateLetter             // `chr` of a surrogate code point (see README)

  datatype Reason =
    | MissingQuestions                        // the dataset has no "questions" key
    | ValidationFailed(shown: seq<Problem>)   // the first problems found by validation
    | SubjectiveNotConfigured                 // a subjective question but no judge client
    | CodePointTooLarge                       // `chr` of a value above 0x10FFFF

  /** One validation problem of the dataset: the question's position and what is wrong. */
  datatype Problem = Problem(index: nat, kind: ProblemKind)

  datatype ProblemKind =
    | SchemaViolation
    | InvalidDimension(dimension: string)
    | InvalidTradition(tradition: string)
    | ObjectiveMissingFields
    | SubjectiveMissingFields
}

=== FILE: evaluator.dfy ===
/**
 The evaluation run (cab_benchmark/evaluator.py): load and validate the
 dataset, select questions, put each to the model and score it with the
 scorer for its mode, and aggregate the scores with the geometric mean.
 The model, the judges and the shuffle's random draws are parameters.
 */
module Evaluator {
  import opened Base
  import opened Seqs
  import opened Loader
  import opened Scorer
  import opened Aggregator

  /**
   The evaluator's settings. `judge` is present when a judge client of a
   recognised kind was given, and answers `(panel seat, prompt)`.
   */
  datatype Config = Config(
    modelFn: string -> string,
    judge: Option<(nat, string) -> string>,
    numJudges: int,
    randomizeOptions: bool)

  /** The scorer's report on one question. */
  datatype Details = ObjectiveReport(objective: ObjectiveDetails) | SubjectiveReport(subjective: SubjectiveDetails)

  /** One entry of "detailed_results". */
  datatype QuestionResult = QuestionResult(
    id: string,
    dimension: string,
    tradition: string,
    difficulty: string,
    scoringMode: string,
    score: real,
    details: Details)

  /** The result record of question `q`: its identifying keys, then the score and the scorer's report. */
  function Record(q: Question, score: real, details: Details): QuestionResult {
    QuestionResult(q.id, q.dimension, q.tradition, q.difficulty, q.scoringMode, score, details)
  }

  /**
   The objective branch of `_evaluate_question`: prepare the question
   (shuffling with `draws`), ask the model, and score the reply against the
   metadata just produced.
   */
  function EvaluateObjective(c: Config, q: Question, draws: seq<nat>): (r: Result<QuestionResult>)
    ensures var p := PrepareObjective(q, c.randomizeOptions, draws);
      && (r.Ok? <==> p.Ok?)
      && (r.Err? ==> r.error == p.error)
      && (r.Ok? ==>
            && r.value.details.ObjectiveReport?
            && var d := r.value.details.objective;
            && d.rawResponse == c.modelFn(p.value.prompt)
            && d.correctAnswer == p.value.metadata.shuffledCorrect.value
            && d.extractedAnswer == ExtractAnswer(d.rawResponse)
            && (d.isCorrect <==> r.value.score == 1.0)
            && d == ScoreObjective(q, d.rawResponse, Some(p.value.metadata), c.randomizeOptions, draws).value.1
            && (r.value.score == 1.0 <==> ExtractAnswer(d.rawResponse).Some? && [ExtractAnswer(d.rawResponse).value] == d.correctAnswer)
            && (r.value.score == 0.0 || r.value.score == 1.0))
  {
    var p :- PrepareObjective(q, c.randomizeOptions, draws);
    var response := c.modelFn(p.prompt);
    var scored := ScoreObjective(q, response, Some(p.metadata), c.randomizeOptions, draws);
    Ok(Record(q, scored.value.0, ObjectiveReport(scored.value.1)))
  }

  /**
   The subjective branch of `_evaluate_question` when a panel is configured:
   the model answers the scenario, and the panel scores the answer. The
   scenario is read first, so its absence raises before anything else.
   */
  function EvaluateSubjective(c: Config, q: Question, judge: (nat, string) -> string): (r: Result<QuestionResult>)
    ensures q.fields.scenario.None? ==> r == Err(KeyError("scenario"))
    ensures q.fields.scenario.Some? && c.numJudges <= 0 ==> r == Err(IndexError)
    ensures q.fields.scenario.Some? && c.numJudges > 0 && q.fields.rubricFocus.None? ==> r == Err(KeyError("rubric_focus"))
    ensures r.Ok? <==> c.numJudges > 0 && q.fields.scenario.Some? && q.fields.rubricFocus.Some?
    ensures r.Ok? ==>
      && r.value.details.SubjectiveReport?
      && r.value.details.subjective.rawResponse == c.modelFn(q.fields.scenario.value)
      && IsQuarter(r.value.score)
    ensures r.Ok? ==>
      var panel := ScoreSubjective(q, c.modelFn(q.fields.scenario.value), c.numJudges, judge);
      panel.Ok? && r.value.score == panel.value.0 && r.value.details.subjective == panel.value.1
  {
    var prompt :- PrepareSubjective(q);
    var response := c.modelFn(prompt);
    var scored :- ScoreSubjective(q, response, c.numJudges, judge);
    Ok(Record(q, scored.0, SubjectiveReport(scored.1)))
  }

  /**
   `_evaluate_question`: a question whose mode is "objective" goes to the
   objective scorer; any other mode needs a judge panel, and without one the
   run stops with a `ValueError`. Every score lies in [0, 1].
   */
  function EvaluateQuestion(c: Config, q: Question, draws: seq<nat>): (r: Result<QuestionResult>)
    ensures r.Ok? ==>
      && r.value.id == q.id && r.value.dimension == q.dimension && r.value.tradition == q.tradition
      && r.value.difficulty == q.difficulty && r.value.scoringMode == q.scoringMode
      && 0.0 <= r.value.score <= 1.0
    ensures r == Err(ValueError(SubjectiveNotConfigured)) <==> q.scoringMode != "objective" && c.judge.None?
    ensures r.Ok? && q.scoringMode == "objective" ==> r.value.details.ObjectiveReport?
    ensures q.scoringMode == "objective" ==> r == EvaluateObjective(c, q, draws)
    ensures q.scoringMode != "objective" && c.judge.Some? ==> r == EvaluateSubjective(c, q, c.judge.value)
  {
    if q.scoringMode == "objective" then EvaluateObjective(c, q, draws)
    else if c.judge.None? then Err(ValueError(SubjectiveNotConfigured))
    else EvaluateSubjective(c, q, c.judge.value)
  }

  /** `questions[:max_questions]`, applied only when `max_questions` is given and non-zero. */
  function Truncate(qs: seq<Question>, maxQuestions: Option<int>): (r: seq<Question>)
    ensures |r| <= |qs| && r == qs[..|r|]
    ensures maxQuestions.None? || maxQuestions.value == 0 ==> r == qs
    ensures maxQuestions.Some? && maxQuestions.value > 0 ==> |r| == Min(maxQuestions.value, |qs|)
    ensures maxQuestions.Some? && maxQuestions.value < 0 ==>
      |r| == if |qs| + maxQuestions.value < 0 then 0 else |qs| + maxQuestions.value
  {
    match maxQuestions
    case None => qs
    case Some(m) =>
      if m == 0 then qs
      else if m > 0 then qs[..Min(m, |qs|)]
      else if |qs| + m < 0 then []
      else qs[..|qs| + m]
  }

  /** The filters `evaluate` passes on; it never filters by difficulty. */
  datatype Filters = Filters(
    dimensions: Option<seq<string>>,
    traditions: Option<seq<string>>,
    scoringMode: Option<string>)

  function CriteriaOf(f: Filters): Criteria {
    Criteria(f.dimensions, f.traditions, f.scoringMode, None)
  }

  /** The questions a run evaluates, in dataset order. */
  function Selected(d: Dataset, f: Filters, maxQuestions: Option<int>): seq<Question> {
    Truncate(FilterQuestions(d.questions, CriteriaOf(f)), maxQuestions)
  }

  /**
   Every selected question is in the dataset and meets the filters; without
   a limit, every question of the dataset that meets them is selected.
   */
  lemma SelectionSound(d: Dataset, f: Filters, maxQuestions: Option<int>)
    ensures forall q :: q in Selected(d, f, maxQuestions) ==> q in d.questions && Matches(q, CriteriaOf(f))
    ensures maxQuestions.None? ==>
      forall q :: q in d.questions && Matches(q, CriteriaOf(f)) ==> q in Selected(d, f, maxQuestions)
  {
    var all := FilterQuestions(d.questions, CriteriaOf(f));
    var qs := Selected(d, f, maxQuestions);
    forall q | q in qs ensures q in all {
      var i :| 0 <= i < |qs| && qs[i] == q;
      assert all[i] == q;
    }
  }

  /** The run's "metadata" block (the timestamp is not modelled). */
  datatype RunMetadata = RunMetadata(datasetVersion: string, totalQuestions: nat, filters: Filters)

  /** What `evaluate` returns. */
  datatype RunOutput = RunOutput(metadata: RunMetadata, summary: Summary, detailedResults: seq<QuestionResult>)

  /** The detailed results as `aggregate_scores` reads them. */
  function AsScored(rs: seq<QuestionResult>): (s: seq<ScoredResult>)
    ensures |s| == |rs|
    ensures forall i :: 0 <= i < |rs| ==>
      s[i] == ScoredResult(Some(rs[i].score), Some(rs[i].dimension), Some(rs[i].tradition), Some(rs[i].scoringMode))
  {
    seq(|rs|, i requires 0 <= i < |rs| =>
      ScoredResult(Some(rs[i].score), Some(rs[i].dimension), Some(rs[i].tradition), Some(rs[i].scoringMode)))
  }

  /** The first selected question whose evaluation raises, if `i` is it. */
  predicate FirstFailure(c: Config, qs: seq<Question>, draws: nat -> seq<nat>, i: nat)
  {
    && i < |qs|
    && EvaluateQuestion(c, qs[i], draws(i)).Err?
    && forall j :: 0 <= j < i ==> EvaluateQuestion(c, qs[j], draws(j)).Ok?
  }

  /**
   `CABEvaluator.evaluate`: the loaded dataset's questions, filtered and
   truncated, are evaluated in order (the i-th with shuffle draws
   `draws(i)`); the first exception ends the run. The results are
   aggregated with the geometric mean (standing for `root`), with both
   breakdowns.
   */
  method Evaluate(c: Config, data: RawDataset, f: Filters, maxQuestions: Option<int>,
                  draws: nat -> seq<nat>, root: seq<real> -> real)
    returns (r: Result<RunOutput>)
    ensures LoadDataset(data).Err? ==> r == Err(LoadDataset(data).error)
    ensures LoadDataset(data).Ok? ==>
      var qs := Selected(LoadDataset(data).value, f, maxQuestions);
      && (r.Ok? <==> forall i :: 0 <= i < |qs| ==> EvaluateQuestion(c, qs[i], draws(i)).Ok?)
      && (r.Err? ==> exists i: nat :: FirstFailure(c, qs, draws, i) && r.error == EvaluateQuestion(c, qs[i], draws(i)).error)
    ensures r.Ok? ==>
      && LoadDataset(data).Ok?
      && var d := LoadDataset(data).value;
      && var qs := Selected(d, f, maxQuestions);
      && var out := r.value;
      && out.metadata == RunMetadata(d.version.GetOr("unknown"), |qs|, f)
      && |out.detailedResults| == |qs|
      && (forall i :: 0 <= i < |qs| ==> out.detailedResults[i] == EvaluateQuestion(c, qs[i], draws(i)).value)
      && out.summary == Aggregate(AsScored(out.detailedResults), "geometric", true, true, root)
      && out.summary.totalQuestions == out.metadata.totalQuestions
      && (IsRoot(root) ==>
            && 0.0 <= out.summary.overallScore <= 1.0
            && 0.0 <= out.summary.cabScore.value <= 1.0)
  {
    var loaded := LoadDataset(data);
    if loaded.Err? {
      return Err(loaded.error);
    }
    var qs := Selected(loaded.value, f, maxQuestions);
    var results := EvaluateSelected(c, qs, draws);
    if results.Err? {
      return Err(results.error);
    }
    var scored := AsScored(results.value);
    var summary := Aggregate(scored, "geometric", true, true, root);
    if IsRoot(root) {
      SummaryInUnitRange(scored, "geometric", true, root);
    }
    r := Ok(RunOutput(RunMetadata(loaded.value.version.GetOr("unknown"), |qs|, f), summary, results.value));
  }

  /**
   The selected questions evaluated in order, the i-th with shuffle draws
   `draws(i)`, until the first that raises; every score lies in [0, 1].
   */
  method EvaluateSelected(c: Config, qs: seq<Question>, draws: nat -> seq<nat>) returns (r: Result<seq<QuestionResult>>)
    ensures r.Ok? <==> forall i :: 0 <= i < |qs| ==> EvaluateQuestion(c, qs[i], draws(i)).Ok?
    ensures r.Err? ==> exists i: nat :: FirstFailure(c, qs, draws, i) && r.error == EvaluateQuestion(c, qs[i], draws(i)).error
    ensures r.Ok? ==>
      && |r.value| == |qs|
      && (forall i :: 0 <= i < |qs| ==> r.value[i] == EvaluateQuestion(c, qs[i], draws(i)).value)
      && forall i :: 0 <= i < |qs| ==> 0.0 <= r.value[i].score <= 1.0
  {
    var step := (i: nat) => if i < |qs| then EvaluateQuestion(c, qs[i], draws(i)) else Err(IndexError);
    r := RunAll(|qs|, step);
    assert forall j :: 0 <= j < |qs| ==> step(j) == EvaluateQuestion(c, qs[j], draws(j));
    if r.Err? {
      var i :| FirstErr(step, |qs|, i) && r.error == step(i).error;
      assert FirstFailure(c, qs, draws, i);
    }
  }

  /**
   The loop of `evaluate`, for any per-position step: positions `0..n` in
   turn, stopping at the first whose step raises and reporting that error.
   */
  method RunAll<T>(n: nat, step: nat -> Result<T>) returns (r: Result<seq<T>>)
    ensures r.Ok? <==> forall i :: 0 <= i < n ==> step(i).Ok?
    ensures r.Err? ==> exists i :: FirstErr(step, n, i) && r.error == step(i).error
    ensures r.Ok? ==> |r.value| == n && forall i :: 0 <= i < n ==> r.value[i] == step(i).value
  {
    var results: seq<T> := [];
    var i := 0;
    while i < n
      invariant 0 <= i <= n
      invariant |results| == i
      invariant forall j :: 0 <= j < i ==> step(j).Ok? && results[j] == step(j).value
    {
      var res := step(i);
      if res.Err? {
        assert FirstErr(step, n, i);
        return Err(res.error);
      }
      results := results + [res.value];
      i := i + 1;
    }
    r := Ok(results);
  }

  /** `i` is the first position below `n` whose step raises. */
  predicate FirstErr<T>(step: nat -> Result<T>, n: nat, i: nat) {
    i < n && step(i).Err? && forall j :: 0 <= j < i ==> step(j).Ok?
  }

  /** The filters `quick_evaluate` passes: scoring mode "objective" when `objectiveOnly`, none otherwise. */
  function QuickFilters(objectiveOnly: bool): Filters {
    Filters(None, None, if objectiveOnly then Some("objective") else None)
  }

  predicate IsObjective(q: Question) {
    q.scoringMode == "objective"
  }

  /**
   What `quick_evaluate` runs on: with `objectiveOnly`, exactly the
   dataset's objective questions in dataset order; otherwise every question
   of the dataset.
   */
  lemma QuickSelection(d: Dataset, objectiveOnly: bool)
    ensures objectiveOnly ==> Selected(d, QuickFilters(objectiveOnly), None) == Filter(d.questions, IsObjective)
    ensures !objectiveOnly ==> Selected(d, QuickFilters(objectiveOnly), None) == d.questions
    ensures objectiveOnly ==>
      var qs := Selected(d, QuickFilters(objectiveOnly), None);
      forall i :: 0 <= i < |qs| ==> IsObjective(qs[i])
  {
    var c := CriteriaOf(QuickFilters(objectiveOnly));
    if objectiveOnly {
      var keep := (q: Question) => true;
      FilterAll(Filter(d.questions, ModeTest(c)), keep);
      FilterTwice(d.questions, ModeTest(c), keep, IsObjective);
      var qs := Filter(d.questions, IsObjective);
      forall i | 0 <= i < |qs| ensures IsObjective(qs[i]) {
        assert qs[i] in qs;
      }
    } else {
      FilterNothing(d.questions, c);
    }
  }

  /**
   `quick_evaluate`: an evaluator with default settings (options shuffled,
   three judges, no judge client) run on the whole dataset, restricted to
   objective questions when `objectiveOnly` and not restricted otherwise
   (which questions that selects is `QuickSelection`). Restricted that way,
   the run never fails for want of a judge; and since there is no judge, a
   run that succeeds has evaluated objective questions only.
   */
  method QuickEvaluate(modelFn: string -> string, data: RawDataset, objectiveOnly: bool,
                       draws: nat -> seq<nat>, root: seq<real> -> real)
    returns (r: Result<RunOutput>)
    ensures LoadDataset(data).Err? ==> r == Err(LoadDataset(data).error)
    ensures LoadDataset(data).Ok? ==>
      var qs := Selected(LoadDataset(data).value, QuickFilters(objectiveOnly), None);
      r.Ok? <==> forall i :: 0 <= i < |qs| ==> EvaluateQuestion(Config(modelFn, None, 3, true), qs[i], draws(i)).Ok?
    ensures r.Ok? ==>
      && LoadDataset(data).Ok?
      && var d := LoadDataset(data).value;
      && var qs := Selected(d, QuickFilters(objectiveOnly), None);
      && r.value.metadata == RunMetadata(d.version.GetOr("unknown"), |qs|, QuickFilters(objectiveOnly))
      && |r.value.detailedResults| == |qs|
      && forall i :: 0 <= i < |qs| ==>
           r.value.detailedResults[i] == EvaluateQuestion(Config(modelFn, None, 3, true), qs[i], draws(i)).value
    ensures objectiveOnly && r.Err? ==> r.error != ValueError(SubjectiveNotConfigured)
    ensures r.Ok? ==>
      forall i :: 0 <= i < |r.value.detailedResults| ==>
        r.value.detailedResults[i].scoringMode == "objective" && r.value.detailedResults[i].details.ObjectiveReport?
    ensures r.Ok? ==> r.value.summary.meanMethod == "geometric"
  {
    var c := Config(modelFn, None, 3, true);
    var f := QuickFilters(objectiveOnly);
    r := Evaluate(c, data, f, None, draws, root);
    if LoadDataset(data).Ok? {
      var qs := Selected(LoadDataset(data).value, f, None);
      if r.Ok? {
        forall i | 0 <= i < |r.value.detailedResults|
          ensures r.value.detailedResults[i].scoringMode == "objective" && r.value.detailedResults[i].details.ObjectiveReport?
        {
          assert r.value.detailedResults[i] == EvaluateQuestion(c, qs[i], draws(i)).value;
        }
      } else if objectiveOnly {
        QuickSelection(LoadDataset(data).value, objectiveOnly);
        var i: nat :| FirstFailure(c, qs, draws, i) && r.error == EvaluateQuestion(c, qs[i], draws(i)).error;
        assert IsObjective(qs[i]);
      }
    }
  }
}

=== FILE: loader.dfy ===
/**
 The dataset side of the harness (cab_benchmark/loader.py): the question
 records, the per-question validation done when a dataset is loaded, the
 multi-criteria filter and the dataset statistics.
 */
module Loader {
  import opened Base
  import opened Seqs

  /** The mode-specific keys of a question; an absent key is `None`. */
  datatype ModeFields = ModeFields(
    question: Option<string>,
    options: Option<seq<string>>,
    correctAnswer: Option<string>,
    scenario: Option<string>,
    rubricFocus: Option<string>)

  /** A question as stored in the dataset, before validation: any key may be absent. */
  datatype RawQuestion = RawQuestion(
    id: Option<string>,
    scoringMode: Option<string>,
    dimension: Option<string>,
    tradition: Option<string>,
    difficulty: Option<string>,
    fields: ModeFields)

  /** A question carrying the five keys every question must have. */
  datatype Question = Question(
    id: string,
    scoringMode: string,
    dimension: string,
    tradition: string,
    difficulty: string,
    fields: ModeFields)

  /** The dataset document: its "questions" list (if present) and its "version". */
  datatype RawDataset = RawDataset(questions: Option<seq<RawQuestion>>, version: Option<string>)

  /** A dataset that passed validation. */
  datatype Dataset = Dataset(questions: seq<Question>, version: Option<string>)

  const Dimensions: seq<string> := [
    "Biblical Literacy", "Systematic Theology", "Pastoral Care", "Christian Ethics",
    "Church History", "Worship & Sacraments", "Apologetics", "Spiritual Formation",
    "Denominational Awareness", "Boundary Respect"]

  const Traditions: seq<string> := [
    "Cross-Tradition", "Catholic", "Orthodox", "Reformed", "Lutheran",
    "Baptist", "Methodist", "Anglican", "Pentecostal", "Evangelical"]

  const ScoringModes: seq<string> := ["objective", "subjective"]

  const Difficulties: seq<string> := ["L1", "L2", "L3"]

  predicate IsAsciiDigit(c: char) {
    '0' <= c <= '9'
  }

  /**
   The schema's id pattern "^CAB-\d{4}$" under `re.search`, with `\d` read
   as an ASCII digit: four such digits after "CAB-", and `$` also matches
   just before one final newline. (Python's `\d` also accepts the other
   Unicode decimal digits; see README.)
   */
  predicate IdMatches(id: string): (b: bool)
    ensures b <==> exists n: nat :: n < 10000 && (id == FormatId(n) || id == FormatId(n) + "\n")
  {
    var b :=
      && (|id| == 8 || (|id| == 9 && id[8] == '\n'))
      && id[..4] == "CAB-"
      && IsAsciiDigit(id[4]) && IsAsciiDigit(id[5]) && IsAsciiDigit(id[6]) && IsAsciiDigit(id[7]);
    if b then
      var n := DigitsNumber(id[4], id[5], id[6], id[7]);
      assert id[..8] == FormatId(n) by {
        assert id[..8] == id[..4] + [id[4], id[5], id[6], id[7]];
      }
      assert id == id[..8] || id == id[..8] + "\n";
      b
    else
      assert forall n: nat :: n < 10000 ==> (FormatId(n) + "\n")[..4] == FormatId(n)[..4];
      b
  }

  /** The number the four digits `a`, `b`, `c`, `d` spell, which `FormatId` writes back as them. */
  function DigitsNumber(a: char, b: char, c: char, d: char): (n: nat)
    requires IsAsciiDigit(a) && IsAsciiDigit(b) && IsAsciiDigit(c) && IsAsciiDigit(d)
    ensures n < 10000 && FormatId(n) == "CAB-" + [a, b, c, d]
  {
    var da, db, dc, dd := a as int - '0' as int, b as int - '0' as int, c as int - '0' as int, d as int - '0' as int;
    DigitsOf(da, db, dc, dd);
    1000 * da + 100 * db + 10 * dc + dd
  }

  /** The decimal digit for `d`. */
  function DigitChar(d: nat): (c: char)
    requires d < 10
    ensures IsAsciiDigit(c) && c as int - '0' as int == d
  {
    ('0' as int + d) as char
  }

  /** The id "CAB-" followed by `n` written in four digits, with leading zeros. */
  function FormatId(n: nat): (id: string)
    requires n < 10000
    ensures |id| == 8 && id[..4] == "CAB-"
    ensures forall k :: 4 <= k < 8 ==> IsAsciiDigit(id[k])
  {
    "CAB-" + [DigitChar(n / 1000), DigitChar(n / 100 % 10), DigitChar(n / 10 % 10), DigitChar(n % 10)]
  }

  /** The number an accepted id carries: formatting it gives back the id without its newline. */
  function IdNumber(id: string): (n: nat)
    requires IdMatches(id)
    ensures n < 10000 && id[..8] == FormatId(n)
  {
    assert id[..8] == id[..4] + [id[4], id[5], id[6], id[7]];
    DigitsNumber(id[4], id[5], id[6], id[7])
  }

  /** Every formatted number matches the pattern, also before a final newline, and reads back as itself. */
  lemma FormattedIdMatches(n: nat)
    requires n < 10000
    ensures IdMatches(FormatId(n)) && IdMatches(FormatId(n) + "\n")
    ensures IdNumber(FormatId(n)) == n
  {
    var id := FormatId(n);
    assert (id + "\n")[..4] == id[..4];
    Recompose(n);
  }

  /** The four digits of 1000a + 100b + 10c + d are a, b, c and d. */
  lemma DigitsOf(a: int, b: int, c: int, d: int)
    requires 0 <= a < 10 && 0 <= b < 10 && 0 <= c < 10 && 0 <= d < 10
    ensures var n := 1000 * a + 100 * b + 10 * c + d;
      n / 1000 == a && n / 100 % 10 == b && n / 10 % 10 == c && n % 10 == d
  {
    var n := 1000 * a + 100 * b + 10 * c + d;
    DivUnique(n, 1000, a, 100 * b + 10 * c + d);
    DivUnique(n, 100, 10 * a + b, 10 * c + d);
    DivUnique(10 * a + b, 10, a, b);
    DivUnique(n, 10, 100 * a + 10 * b + c, d);
    DivUnique(100 * a + 10 * b + c, 10, 10 * a + b, c);
  }

  /** A number below 10000 is the sum of its four digits times their place values. */
  lemma Recompose(n: nat)
    requires n < 10000
    ensures n == 1000 * (n / 1000) + 100 * (n / 100 % 10) + 10 * (n / 10 % 10) + n % 10
  {
    var q1 := n / 10;
    var q2 := q1 / 10;
    var q3 := q2 / 10;
    DivUnique(n, 100, q2, 10 * (q1 % 10) + n % 10);
    DivUnique(n, 1000, q3, 100 * (q2 % 10) + 10 * (q1 % 10) + n % 10);
  }

  /** Euclidean division by `k` is determined by any quotient and remainder in range. */
  lemma DivUnique(n: int, k: int, q: int, r: int)
    requires 0 < k && 0 <= r < k && n == q * k + r
    ensures n / k == q && n % k == r
  {
    var q0 := n / k;
    var x := q - q0;
    assert x * k == n % k - r by {
      assert q * k - q0 * k == (q - q0) * k;
    }
    if x >= 1 {
      MulAtLeast(x, k);
    } else if x <= -1 {
      MulAtLeast(-x, k);
    }
  }

  lemma {:induction false} MulAtLeast(x: int, k: int)
    requires x >= 1 && k > 0
    ensures x * k >= k
    decreases x
  {
    if x > 1 {
      MulAtLeast(x - 1, k);
      assert x * k == (x - 1) * k + k;
    }
  }

  /** The constraints of the question schema that the typed record does not already guarantee. */
  predicate SchemaValid(q: RawQuestion): (b: bool)
    ensures b <==>
      && q.id.Some? && q.scoringMode.Some? && q.dimension.Some? && q.tradition.Some? && q.difficulty.Some?
      && (exists n: nat :: n < 10000 && (q.id.value == FormatId(n) || q.id.value == FormatId(n) + "\n"))
      && (q.scoringMode.value == "objective" || q.scoringMode.value == "subjective")
      && (q.difficulty.value == "L1" || q.difficulty.value == "L2" || q.difficulty.value == "L3")
  {
    && q.id.Some? && q.scoringMode.Some? && q.dimension.Some? && q.tradition.Some? && q.difficulty.Some?
    && IdMatches(q.id.value)
    && q.scoringMode.value in ScoringModes
    && q.difficulty.value in Difficulties
  }

  predicate ObjectiveFieldsMissing(f: ModeFields) {
    f.question.None? || f.options.None? || f.correctAnswer.None?
  }

  predicate SubjectiveFieldsMissing(f: ModeFields) {
    f.scenario.None? || f.rubricFocus.None?
  }

  /** `[p]` when `b` holds, else nothing. */
  function When(b: bool, p: Problem): (r: seq<Problem>)
    ensures |r| <= 1 && (p in r <==> b) && forall x :: x in r ==> x == p
  {
    if b then [p] else []
  }

  /** The problems validation reports for the question at position `i`. */
  function QuestionProblems(i: nat, q: RawQuestion): (ps: seq<Problem>)
    ensures !SchemaValid(q) ==> ps == [Problem(i, SchemaViolation)]
    ensures forall k :: 0 <= k < |ps| ==> ps[k].index == i
    ensures SchemaValid(q) ==> Problem(i, SchemaViolation) !in ps && |ps| <= 4
  {
    if !SchemaValid(q) then [Problem(i, SchemaViolation)] else ContentProblems(i, q)
  }

  /** The checks after the schema: the dimension, the tradition and the fields the scoring mode needs. */
  function ContentProblems(i: nat, q: RawQuestion): (ps: seq<Problem>)
    requires SchemaValid(q)
    ensures forall k :: 0 <= k < |ps| ==> ps[k].index == i && ps[k].kind != SchemaViolation
    ensures |ps| <= 4
  {
    var mode := q.scoringMode.value;
    When(q.dimension.value !in Dimensions, Problem(i, InvalidDimension(q.dimension.value)))
    + When(q.tradition.value !in Traditions, Problem(i, InvalidTradition(q.tradition.value)))
    + When(mode == "objective" && ObjectiveFieldsMissing(q.fields), Problem(i, ObjectiveMissingFields))
    + When(mode == "subjective" && SubjectiveFieldsMissing(q.fields), Problem(i, SubjectiveMissingFields))
  }

  /** A question that passes the schema is reported for exactly the checks it fails. */
  lemma QuestionProblemsReported(i: nat, q: RawQuestion)
    requires SchemaValid(q)
    ensures Problem(i, InvalidDimension(q.dimension.value)) in QuestionProblems(i, q) <==> q.dimension.value !in Dimensions
    ensures Problem(i, InvalidTradition(q.tradition.value)) in QuestionProblems(i, q) <==> q.tradition.value !in Traditions
    ensures Problem(i, ObjectiveMissingFields) in QuestionProblems(i, q)
      <==> q.scoringMode.value == "objective" && ObjectiveFieldsMissing(q.fields)
    ensures Problem(i, SubjectiveMissingFields) in QuestionProblems(i, q)
      <==> q.scoringMode.value == "subjective" && SubjectiveFieldsMissing(q.fields)
  {
  }

  /** Everything validation asks of one question, stated independently of how problems are reported. */
  predicate FullyValid(q: RawQuestion) {
    && SchemaValid(q)
    && q.dimension.value in Dimensions
    && q.tradition.value in Traditions
    && (q.scoringMode.value == "objective" ==> !ObjectiveFieldsMissing(q.fields))
    && (q.scoringMode.value == "subjective" ==> !SubjectiveFieldsMissing(q.fields))
  }

  /** The problems of the questions from position `i` on, in question order. */
  function ValidateFrom(qs: seq<RawQuestion>, i: nat): (ps: seq<Problem>)
    requires i <= |qs|
    ensures forall k :: 0 <= k < |ps| ==> i <= ps[k].index < |qs|
    ensures forall k, l :: 0 <= k < l < |ps| ==> ps[k].index <= ps[l].index
    decreases |qs| - i
  {
    if i == |qs| then [] else QuestionProblems(i, qs[i]) + ValidateFrom(qs, i + 1)
  }

  /** All validation problems of a question list. */
  function Validate(qs: seq<RawQuestion>): seq<Problem>
  {
    ValidateFrom(qs, 0)
  }

  /** A question has no problems exactly when it is fully valid. */
  lemma QuestionProblemsEmpty(i: nat, q: RawQuestion)
    ensures QuestionProblems(i, q) == [] <==> FullyValid(q)
  {
  }

  /** Validation reports nothing exactly when every question is fully valid. */
  lemma {:induction false} ValidateEmpty(qs: seq<RawQuestion>, i: nat)
    requires i <= |qs|
    ensures ValidateFrom(qs, i) == [] <==> forall k :: i <= k < |qs| ==> FullyValid(qs[k])
    decreases |qs| - i
  {
    if i < |qs| {
      var a := QuestionProblems(i, qs[i]);
      var b := ValidateFrom(qs, i + 1);
      assert ValidateFrom(qs, i) == a + b;
      assert |a + b| == |a| + |b|;
      ValidateEmpty(qs, i + 1);
      QuestionProblemsEmpty(i, qs[i]);
      if a == [] && b == [] {
        forall k | i <= k < |qs| ensures FullyValid(qs[k]) {
          if k > i {
            assert i + 1 <= k < |qs|;
          }
        }
      } else if a != [] {
        assert !FullyValid(qs[i]);
      } else {
        var k :| i + 1 <= k < |qs| && !FullyValid(qs[k]);
      }
    }
  }

  /** A question failing the schema contributes exactly one problem and none of its other checks run. */
  lemma SchemaFailureIsOneProblem(qs: seq<RawQuestion>, i: nat)
    requires i < |qs| && !SchemaValid(qs[i])
    ensures ValidateFrom(qs, i) == [Problem(i, SchemaViolation)] + ValidateFrom(qs, i + 1)
  {
  }

  /** The question record of a question that passed the schema. */
  function Conform(q: RawQuestion): (r: Question)
    requires SchemaValid(q)
    ensures r.id == q.id.value && r.scoringMode == q.scoringMode.value
    ensures r.dimension == q.dimension.value && r.tradition == q.tradition.value
    ensures r.difficulty == q.difficulty.value && r.fields == q.fields
  {
    Question(q.id.value, q.scoringMode.value, q.dimension.value, q.tradition.value, q.difficulty.value, q.fields)
  }

  function Min(a: nat, b: nat): nat {
    if a <= b then a else b
  }

  /**
   The validation part of `load_dataset`: a missing "questions" key is a
   `ValueError`; any problem is a `ValueError` whose message shows the first
   ten problems; otherwise the questions, unchanged.
   */
  function LoadDataset(data: RawDataset): (r: Result<Dataset>)
    ensures data.questions.None? ==> r == Err(ValueError(MissingQuestions))
    ensures data.questions.Some? ==>
      (r.Ok? <==> forall k :: 0 <= k < |data.questions.value| ==> FullyValid(data.questions.value[k]))
    ensures data.questions.Some? && r.Err? ==>
      var ps := Validate(data.questions.value);
      && |ps| > 0
      && r.error == ValueError(ValidationFailed(ps[..Min(10, |ps|)]))
    ensures r.Ok? ==>
      && data.questions.Some?
      && r.value.version == data.version
      && |r.value.questions| == |data.questions.value|
      && forall k :: 0 <= k < |r.value.questions| ==>
           SchemaValid(data.questions.value[k]) && r.value.questions[k] == Conform(data.questions.value[k])
  {
    if data.questions.None? then Err(ValueError(MissingQuestions))
    else
      var qs := data.questions.value;
      var ps := Validate(qs);
      ValidateEmpty(qs, 0);
      if |ps| > 0 then Err(ValueError(ValidationFailed(ps[..Min(10, |ps|)])))
      else Ok(Dataset(seq(|qs|, k requires 0 <= k < |qs| => Conform(qs[k])), data.version))
  }

  /** The selection criteria of `filter_questions`; `None` or an empty value selects everything. */
  datatype Criteria = Criteria(
    dimensions: Option<seq<string>>,
    traditions: Option<seq<string>>,
    scoringMode: Option<string>,
    difficulty: Option<seq<string>>)

  /** Python truthiness of an optional list or string: present and non-empty. */
  predicate Active<T>(c: Option<seq<T>>) {
    c.Some? && |c.value| > 0
  }

  function DimensionTest(c: Criteria): Question -> bool {
    (q: Question) => !Active(c.dimensions) || q.dimension in c.dimensions.value
  }

  function TraditionTest(c: Criteria): Question -> bool {
    (q: Question) => !Active(c.traditions) || q.tradition in c.traditions.value
  }

  function ModeTest(c: Criteria): Question -> bool {
    (q: Question) => !Active(c.scoringMode) || q.scoringMode == c.scoringMode.value
  }

  function DifficultyTest(c: Criteria): Question -> bool {
    (q: Question) => !Active(c.difficulty) || q.difficulty in c.difficulty.value
  }

  /** A question meets the criteria when it satisfies every non-empty one. */
  predicate Matches(q: Question, c: Criteria) {
    && (Active(c.dimensions) ==> q.dimension in c.dimensions.value)
    && (Active(c.traditions) ==> q.tradition in c.traditions.value)
    && (Active(c.scoringMode) ==> q.scoringMode == c.scoringMode.value)
    && (Active(c.difficulty) ==> q.difficulty in c.difficulty.value)
  }

  function MatchTest(c: Criteria): Question -> bool {
    (q: Question) => Matches(q, c)
  }

  /** One stage of `filter_questions`: a list comprehension by `test`, run only when its criterion is given. */
  function Stage(s: seq<Question>, active: bool, test: Question -> bool): (r: seq<Question>)
    ensures forall q :: q in r <==> q in s && (active ==> test(q))
  {
    if active then Filter(s, test) else s
  }

  /** `filter_questions`: the four criteria applied one after another, each only when non-empty. */
  function FilterQuestions(qs: seq<Question>, c: Criteria): (r: seq<Question>)
    ensures forall q :: q in r <==> q in qs && Matches(q, c)
  {
    var a := Stage(qs, Active(c.dimensions), DimensionTest(c));
    var b := Stage(a, Active(c.traditions), TraditionTest(c));
    var d := Stage(b, Active(c.scoringMode), ModeTest(c));
    Stage(d, Active(c.difficulty), DifficultyTest(c))
  }

  /** One stage of the filter is a filter by its test whether or not the criterion is active. */
  lemma StageIsFilter(s: seq<Question>, active: bool, test: Question -> bool)
    requires !active ==> forall q :: test(q)
    ensures Stage(s, active, test) == Filter(s, test)
  {
    if !active {
      FilterAll(s, test);
    }
  }

  /** The first two tests together. */
  function DimensionAndTradition(c: Criteria): Question -> bool {
    (q: Question) => DimensionTest(c)(q) && TraditionTest(c)(q)
  }

  /** The first three tests together. */
  function FirstThreeTests(c: Criteria): Question -> bool {
    (q: Question) => DimensionAndTradition(c)(q) && ModeTest(c)(q)
  }

  lemma MatchTestSplits(c: Criteria)
    ensures forall q :: MatchTest(c)(q) == (FirstThreeTests(c)(q) && DifficultyTest(c)(q))
  {
    forall q ensures MatchTest(c)(q) == (FirstThreeTests(c)(q) && DifficultyTest(c)(q)) {
      assert DimensionAndTradition(c)(q) == (DimensionTest(c)(q) && TraditionTest(c)(q));
      assert FirstThreeTests(c)(q) == (DimensionAndTradition(c)(q) && ModeTest(c)(q));
    }
  }

  /**
   The staged filter equals a single order-preserving pass keeping exactly
   the questions that match every criterion.
   */
  lemma FilterQuestionsIsOnePass(qs: seq<Question>, c: Criteria)
    ensures FilterQuestions(qs, c) == Filter(qs, MatchTest(c))
  {
    var t1, t2, t3, t4 := DimensionTest(c), TraditionTest(c), ModeTest(c), DifficultyTest(c);
    var a := Stage(qs, Active(c.dimensions), t1);
    StageIsFilter(qs, Active(c.dimensions), t1);
    var b := Stage(a, Active(c.traditions), t2);
    StageIsFilter(a, Active(c.traditions), t2);
    var d := Stage(b, Active(c.scoringMode), t3);
    StageIsFilter(b, Active(c.scoringMode), t3);
    StageIsFilter(d, Active(c.difficulty), t4);
    FilterTwice(qs, t1, t2, DimensionAndTradition(c));
    FilterTwice(qs, DimensionAndTradition(c), t3, FirstThreeTests(c));
    MatchTestSplits(c);
    FilterTwice(qs, FirstThreeTests(c), t4, MatchTest(c));
  }

  /** Applying the same filter twice changes nothing. */
  lemma FilterQuestionsIdempotent(qs: seq<Question>, c: Criteria)
    ensures FilterQuestions(FilterQuestions(qs, c), c) == FilterQuestions(qs, c)
  {
    FilterQuestionsIsOnePass(qs, c);
    FilterQuestionsIsOnePass(FilterQuestions(qs, c), c);
    FilterIdempotent(qs, MatchTest(c));
  }

  /** Criteria that are all absent or empty select every question, in order. */
  lemma FilterNothing(qs: seq<Question>, c: Criteria)
    requires !Active(c.dimensions) && !Active(c.traditions) && !Active(c.scoringMode) && !Active(c.difficulty)
    ensures FilterQuestions(qs, c) == qs
  {
  }

  function DimensionsOf(qs: seq<Question>): (ks: seq<string>)
    ensures |ks| == |qs| && forall i :: 0 <= i < |qs| ==> ks[i] == qs[i].dimension
  {
    seq(|qs|, i requires 0 <= i < |qs| => qs[i].dimension)
  }

  function TraditionsOf(qs: seq<Question>): (ks: seq<string>)
    ensures |ks| == |qs| && forall i :: 0 <= i < |qs| ==> ks[i] == qs[i].tradition
  {
    seq(|qs|, i requires 0 <= i < |qs| => qs[i].tradition)
  }

  function ModesOf(qs: seq<Question>): (ks: seq<string>)
    ensures |ks| == |qs| && forall i :: 0 <= i < |qs| ==> ks[i] == qs[i].scoringMode
  {
    seq(|qs|, i requires 0 <= i < |qs| => qs[i].scoringMode)
  }

  function DifficultiesOf(qs: seq<Question>): (ks: seq<string>)
    ensures |ks| == |qs| && forall i :: 0 <= i < |qs| ==> ks[i] == qs[i].difficulty
  {
    seq(|qs|, i requires 0 <= i < |qs| => qs[i].difficulty)
  }

  /** Occurrence count of every value of `ks`. */
  function Tally(ks: seq<string>): (m: map<string, nat>)
    ensures m.Keys == set k | k in ks
  {
    map k | k in ks :: Occurrences(ks, k)
  }

  datatype Statistics = Statistics(
    total: nat,
    byDimension: map<string, nat>,
    byTradition: map<string, nat>,
    byMode: map<string, nat>,
    byDifficulty: map<string, nat>)

  /** The scoring modes and difficulties the statistics have counters for. */
  predicate KnownModeAndDifficulty(q: Question) {
    q.scoringMode in ScoringModes && q.difficulty in Difficulties
  }

  /** Position `i` holds the first question with an unknown mode or difficulty. */
  predicate FirstUnknown(qs: seq<Question>, i: nat)
    requires i < |qs|
  {
    !KnownModeAndDifficulty(qs[i]) && forall j :: 0 <= j < i ==> KnownModeAndDifficulty(qs[j])
  }

  /** The `KeyError` `get_statistics` raises on a question with an unknown mode (checked first) or difficulty. */
  function StatisticsError(q: Question): Error
  {
    if q.scoringMode !in ScoringModes then KeyError(q.scoringMode) else KeyError(q.difficulty)
  }

  /** `m` has exactly the keys `keys`, each mapped to its number of occurrences in `ks`. */
  ghost predicate CountsOver(m: map<string, nat>, keys: set<string>, ks: seq<string>) {
    m.Keys == keys && forall k :: k in m ==> m[k] == Occurrences(ks, k)
  }

  /**
   `get_statistics`: the total, the count of each dimension and tradition
   present, and the counts of the fixed modes and difficulties; the first
   question with an unknown mode or difficulty raises `KeyError`.
   */
  method GetStatistics(qs: seq<Question>) returns (r: Result<Statistics>)
    ensures r.Ok? <==> forall i :: 0 <= i < |qs| ==> KnownModeAndDifficulty(qs[i])
    ensures r.Err? ==> exists i :: 0 <= i < |qs| && FirstUnknown(qs, i) && r.error == StatisticsError(qs[i])
    ensures r.Ok? ==>
      && r.value.total == |qs|
      && r.value.byDimension == Tally(DimensionsOf(qs))
      && r.value.byTradition == Tally(TraditionsOf(qs))
      && CountsOver(r.value.byMode, KeySet(ScoringModes), ModesOf(qs))
      && CountsOver(r.value.byDifficulty, KeySet(Difficulties), DifficultiesOf(qs))
  {
    var byDimension: map<string, nat> := map[];
    var byTradition: map<string, nat> := map[];
    var byMode: map<string, nat> := Zeros(ScoringModes);
    var byDifficulty: map<string, nat> := Zeros(Difficulties);
    var i := 0;
    while i < |qs|
      invariant 0 <= i <= |qs|
      invariant forall j :: 0 <= j < i ==> KnownModeAndDifficulty(qs[j])
      invariant Counters(byDimension, byTradition, byMode, byDifficulty) == CountsOf(qs[..i])
    {
      var q := qs[i];
      CountedKeys(qs[..i], q.scoringMode, q.difficulty);
      if q.scoringMode !in byMode {
        assert FirstUnknown(qs, i);
        return Err(KeyError(q.scoringMode));
      }
      if q.difficulty !in byDifficulty {
        assert FirstUnknown(qs, i);
        return Err(KeyError(q.difficulty));
      }
      assert qs[..i + 1][..i] == qs[..i];
      byDimension := Bump(byDimension, q.dimension);
      byTradition := Bump(byTradition, q.tradition);
      byMode := Bump(byMode, q.scoringMode);
      byDifficulty := Bump(byDifficulty, q.difficulty);
      i := i + 1;
    }
    assert qs[..i] == qs;
    CountsOfCounts(qs);
    TallyIsCounts(byDimension, DimensionsOf(qs));
    TallyIsCounts(byTradition, TraditionsOf(qs));
    return Ok(Statistics(|qs|, byDimension, byTradition, byMode, byDifficulty));
  }

  /** The four counter maps `get_statistics` fills in. */
  datatype Counters = Counters(
    byDimension: map<string, nat>,
    byTradition: map<string, nat>,
    byMode: map<string, nat>,
    byDifficulty: map<string, nat>)

  /** The counters after the loop has visited every question of `qs`, in order. */
  function CountsOf(qs: seq<Question>): Counters
  {
    if |qs| == 0 then Counters(map[], map[], Zeros(ScoringModes), Zeros(Difficulties))
    else CountStep(CountsOf(qs[..|qs| - 1]), qs[|qs| - 1])
  }

  /** One iteration of the counting loop. */
  function CountStep(c: Counters, q: Question): Counters
  {
    Counters(Bump(c.byDimension, q.dimension), Bump(c.byTradition, q.tradition),
             Bump(c.byMode, q.scoringMode), Bump(c.byDifficulty, q.difficulty))
  }

  /** While every mode and difficulty seen so far is known, the counters hold exactly the known modes and difficulties. */
  lemma CountedKeys(ps: seq<Question>, mode: string, difficulty: string)
    requires forall i :: 0 <= i < |ps| ==> KnownModeAndDifficulty(ps[i])
    ensures mode in CountsOf(ps).byMode <==> mode in ScoringModes
    ensures difficulty in CountsOf(ps).byDifficulty <==> difficulty in Difficulties
  {
    KnownKeys(ps);
    InKeySet(mode, ScoringModes);
    InKeySet(difficulty, Difficulties);
  }

  lemma InKeySet(k: string, ks: seq<string>)
    ensures k in KeySet(ks) <==> k in ks
  {
  }

  lemma {:induction false} KnownKeys(ps: seq<Question>)
    requires forall i :: 0 <= i < |ps| ==> KnownModeAndDifficulty(ps[i])
    ensures CountsOf(ps).byMode.Keys == KeySet(ScoringModes)
    ensures CountsOf(ps).byDifficulty.Keys == KeySet(Difficulties)
  {
    if |ps| > 0 {
      var i := |ps| - 1;
      KnownKeys(ps[..i]);
      assert KnownModeAndDifficulty(ps[i]);
      assert ps[i].scoringMode in KeySet(ScoringModes);
      assert ps[i].difficulty in KeySet(Difficulties);
    }
  }

  /** When every mode and difficulty is known, the counters count exactly. */
  lemma CountsOfCounts(qs: seq<Question>)
    requires forall i :: 0 <= i < |qs| ==> KnownModeAndDifficulty(qs[i])
    ensures CountsOver(CountsOf(qs).byDimension, KeySet(DimensionsOf(qs)), DimensionsOf(qs))
    ensures CountsOver(CountsOf(qs).byTradition, KeySet(TraditionsOf(qs)), TraditionsOf(qs))
    ensures CountsOver(CountsOf(qs).byMode, KeySet(ScoringModes), ModesOf(qs))
    ensures CountsOver(CountsOf(qs).byDifficulty, KeySet(Difficulties), DifficultiesOf(qs))
  {
    DimensionCounts(qs);
    TraditionCounts(qs);
    ModeCounts(qs);
    DifficultyCounts(qs);
  }

  lemma {:induction false} DimensionCounts(qs: seq<Question>)
    ensures CountsOver(CountsOf(qs).byDimension, KeySet(DimensionsOf(qs)), DimensionsOf(qs))
  {
    if |qs| > 0 {
      var i := |qs| - 1;
      var ps, q := qs[..i], qs[i];
      DimensionCounts(ps);
      StatisticsStep(qs, i);
      assert qs[..i + 1] == qs;
      var m, ks := CountsOf(ps).byDimension, DimensionsOf(ps);
      assert q.dimension in m || q.dimension !in ks by {
        assert q.dimension in ks ==> q.dimension in KeySet(ks);
      }
      BumpCounts(m, KeySet(ks), ks, q.dimension);
      assert CountsOf(qs) == CountStep(CountsOf(ps), q);
    } else {
      assert DimensionsOf(qs) == [];
    }
  }

  lemma {:induction false} TraditionCounts(qs: seq<Question>)
    ensures CountsOver(CountsOf(qs).byTradition, KeySet(TraditionsOf(qs)), TraditionsOf(qs))
  {
    if |qs| > 0 {
      var i := |qs| - 1;
      var ps, q := qs[..i], qs[i];
      TraditionCounts(ps);
      StatisticsStep(qs, i);
      assert qs[..i + 1] == qs;
      var m, ks := CountsOf(ps).byTradition, TraditionsOf(ps);
      assert q.tradition in m || q.tradition !in ks by {
        assert q.tradition in ks ==> q.tradition in KeySet(ks);
      }
      BumpCounts(m, KeySet(ks), ks, q.tradition);
      assert CountsOf(qs) == CountStep(CountsOf(ps), q);
    } else {
      assert TraditionsOf(qs) == [];
    }
  }

  lemma {:induction false} ModeCounts(qs: seq<Question>)
    requires forall i :: 0 <= i < |qs| ==> KnownModeAndDifficulty(qs[i])
    ensures CountsOver(CountsOf(qs).byMode, KeySet(ScoringModes), ModesOf(qs))
  {
    if |qs| > 0 {
      var i := |qs| - 1;
      ModeCounts(qs[..i]);
      StatisticsStep(qs, i);
      assert qs[..i + 1] == qs;
      assert KnownModeAndDifficulty(qs[i]);
      BumpCounts(CountsOf(qs[..i]).byMode, KeySet(ScoringModes), ModesOf(qs[..i]), qs[i].scoringMode);
    } else {
      assert ModesOf(qs) == [];
    }
  }

  lemma {:induction false} DifficultyCounts(qs: seq<Question>)
    requires forall i :: 0 <= i < |qs| ==> KnownModeAndDifficulty(qs[i])
    ensures CountsOver(CountsOf(qs).byDifficulty, KeySet(Difficulties), DifficultiesOf(qs))
  {
    if |qs| > 0 {
      var i := |qs| - 1;
      DifficultyCounts(qs[..i]);
      StatisticsStep(qs, i);
      assert qs[..i + 1] == qs;
      assert KnownModeAndDifficulty(qs[i]);
      BumpCounts(CountsOf(qs[..i]).byDifficulty, KeySet(Difficulties), DifficultiesOf(qs[..i]), qs[i].difficulty);
    } else {
      assert DifficultiesOf(qs) == [];
    }
  }

  /** The counter update `m[k] = m.get(k, 0) + 1`. */
  function Bump(m: map<string, nat>, k: string): map<string, nat>
  {
    m[k := if k in m then m[k] + 1 else 1]
  }

  /** Counting one more key keeps a map's counts exact. */
  lemma BumpCounts(m: map<string, nat>, keys: set<string>, ks: seq<string>, k: string)
    requires CountsOver(m, keys, ks)
    requires k in m || k !in ks
    ensures CountsOver(Bump(m, k), keys + {k}, ks + [k])
  {
    forall j | j in Bump(m, k) ensures Bump(m, k)[j] == Occurrences(ks + [k], j) {
      OccurrencesSnoc(ks, k, j);
    }
  }

  /** The projections of the first `i + 1` questions extend those of the first `i` by question `i`. */
  lemma StatisticsStep(qs: seq<Question>, i: nat)
    requires i < |qs|
    ensures DimensionsOf(qs[..i + 1]) == DimensionsOf(qs[..i]) + [qs[i].dimension]
    ensures TraditionsOf(qs[..i + 1]) == TraditionsOf(qs[..i]) + [qs[i].tradition]
    ensures ModesOf(qs[..i + 1]) == ModesOf(qs[..i]) + [qs[i].scoringMode]
    ensures DifficultiesOf(qs[..i + 1]) == DifficultiesOf(qs[..i]) + [qs[i].difficulty]
    ensures KeySet(DimensionsOf(qs[..i + 1])) == KeySet(DimensionsOf(qs[..i])) + {qs[i].dimension}
    ensures KeySet(TraditionsOf(qs[..i + 1])) == KeySet(TraditionsOf(qs[..i])) + {qs[i].tradition}
  {
    var ps := qs[..i];
    assert qs[..i + 1] == ps + [qs[i]];
    assert DimensionsOf(ps + [qs[i]]) == DimensionsOf(ps) + [qs[i].dimension];
    assert TraditionsOf(ps + [qs[i]]) == TraditionsOf(ps) + [qs[i].tradition];
    assert ModesOf(ps + [qs[i]]) == ModesOf(ps) + [qs[i].scoringMode];
    assert DifficultiesOf(ps + [qs[i]]) == DifficultiesOf(ps) + [qs[i].difficulty];
  }

  function KeySet(ks: seq<string>): set<string> {
    set k | k in ks
  }

  /** A counter of zero for each key: the dict literals `{"objective": 0, "subjective": 0}` and `{"L1": 0, "L2": 0, "L3": 0}`. */
  function Zeros(ks: seq<string>): (m: map<string, nat>)
    ensures m.Keys == KeySet(ks) && forall k :: k in m ==> m[k] == 0
  {
    map k | k in ks :: 0
  }

  /** A map that counts every value of `ks` and nothing else is `Tally(ks)`. */
  lemma TallyIsCounts(m: map<string, nat>, ks: seq<string>)
    requires CountsOver(m, KeySet(ks), ks)
    ensures m == Tally(ks)
  {
  }

  lemma OccurrencesSnoc(ks: seq<string>, k: string, j: string)
    ensures Occurrences(ks + [k], j) == Occurrences(ks, j) + (if j == k then 1 else 0)
  {
    OccurrencesAppend(ks, [k], j);
    assert [k][1..] == [];
  }

  /** Each grouping of successful statistics accounts for every question exactly once. */
  lemma StatisticsCountsSum(qs: seq<Question>)
    requires forall i :: 0 <= i < |qs| ==> KnownModeAndDifficulty(qs[i])
    ensures SumOccurrences(Distinct(DimensionsOf(qs)), DimensionsOf(qs)) == |qs|
    ensures SumOccurrences(Distinct(TraditionsOf(qs)), TraditionsOf(qs)) == |qs|
    ensures Occurrences(ModesOf(qs), "objective") + Occurrences(ModesOf(qs), "subjective") == |qs|
    ensures Occurrences(DifficultiesOf(qs), "L1") + Occurrences(DifficultiesOf(qs), "L2")
      + Occurrences(DifficultiesOf(qs), "L3") == |qs|
  {
    DistinctCountsSum(DimensionsOf(qs));
    DistinctCountsSum(TraditionsOf(qs));
    ModeCountsSum(qs);
    DifficultyCountsSum(qs);
  }

  lemma ModeCountsSum(qs: seq<Question>)
    requires forall i :: 0 <= i < |qs| ==> KnownModeAndDifficulty(qs[i])
    ensures Occurrences(ModesOf(qs), "objective") + Occurrences(ModesOf(qs), "subjective") == |qs|
  {
    var ms := ModesOf(qs);
    forall k | k in ms ensures k in ScoringModes {
      var i :| 0 <= i < |ms| && ms[i] == k;
      assert KnownModeAndDifficulty(qs[i]);
    }
    assert ScoringModes[0] != ScoringModes[1];
    KnownKeysCount(ms, ScoringModes);
    assert ScoringModes[1..] == ["subjective"] && ScoringModes[1..][1..] == [];
    assert SumOccurrences(["subjective"], ms) == Occurrences(ms, "subjective") + SumOccurrences([], ms);
  }

  lemma DifficultyCountsSum(qs: seq<Question>)
    requires forall i :: 0 <= i < |qs| ==> KnownModeAndDifficulty(qs[i])
    ensures Occurrences(DifficultiesOf(qs), "L1") + Occurrences(DifficultiesOf(qs), "L2")
      + Occurrences(DifficultiesOf(qs), "L3") == |qs|
  {
    var ds := DifficultiesOf(qs);
    forall k | k in ds ensures k in Difficulties {
      var i :| 0 <= i < |ds| && ds[i] == k;
      assert KnownModeAndDifficulty(qs[i]);
    }
    assert Difficulties[0] != Difficulties[1] && Difficulties[0] != Difficulties[2] && Difficulties[1] != Difficulties[2];
    KnownKeysCount(ds, Difficulties);
    assert Difficulties[1..] == ["L2", "L3"] && Difficulties[1..][1..] == ["L3"] && Difficulties[1..][1..][1..] == [];
    assert SumOccurrences(["L3"], ds) == Occurrences(ds, "L3") + SumOccurrences([], ds);
  }

  /** When every key of `ks` is one of the distinct `known` keys, their counts add up to `|ks|`. */
  lemma {:induction false} KnownKeysCount(ks: seq<string>, known: seq<string>)
    requires NoDuplicates(known)
    requires forall k :: k in ks ==> k in known
    ensures SumOccurrences(known, ks) == |ks|
  {
    if |ks| > 0 {
      assert ks == [ks[0]] + ks[1..];
      KnownKeysCount(ks[1..], known);
      SumOccurrencesCons(known, ks[0], ks[1..]);
      OccursOnce(known, ks[0]);
    } else {
      SumOccurrencesNil(known);
    }
  }

  lemma {:induction false} SumOccurrencesNil(keys: seq<string>)
    ensures SumOccurrences(keys, []) == 0
  {
    if |keys| > 0 {
      SumOccurrencesNil(keys[1..]);
    }
  }

  lemma {:induction false} SumOccurrencesCons(keys: seq<string>, x: string, t: seq<string>)
    ensures SumOccurrences(keys, [x] + t) == Occurrences(keys, x) + SumOccurrences(keys, t)
  {
    if |keys| > 0 {
      SumOccurrencesCons(keys[1..], x, t);
      assert ([x] + t)[1..] == t;
    }
  }

  lemma {:induction false} OccursOnce(keys: seq<string>, x: string)
    requires NoDuplicates(keys) && x in keys
    ensures Occurrences(keys, x) == 1
  {
    if keys[0] != x {
      OccursOnce(keys[1..], x);
    } else {
      assert x !in keys[1..];
    }
  }
}

=== FILE: scorer.dfy ===
/**
 The two scorers (cab_benchmark/scorer.py). The objective scorer shows a
 multiple-choice question, optionally with its options shuffled, and marks
 a reply correct when the first of the letters A-D in it is the correct
 letter. The subjective scorer asks a panel of judges for a 1-5 score and
 keeps the median, normalised to [0, 1].
 */
module Scorer {
  import opened Base
  import opened Seqs
  import opened Text
  import opened Sorting
  import opened Shuffling
  import opened Loader

  // ---------------------------------------------------------------------
  // Objective questions
  // ---------------------------------------------------------------------

  /** What `prepare_question` records about the options it showed. */
  datatype Metadata = Metadata(
    originalCorrect: string,
    shuffledCorrect: Option<string>,
    options: seq<string>)

  /** The prompt shown to the model and the metadata for scoring it. */
  datatype Prepared = Prepared(prompt: string, metadata: Metadata)

  /** Python's `xs[i]` position for a list of length `n`: negative indices count from the end. */
  function PyIndex(i: int, n: nat): (k: Option<nat>)
    ensures k.Some? <==> -(n as int) <= i < n
    ensures k.Some? ==> k.value < n && (k.value == i || k.value == i + n)
  {
    if 0 <= i < n then Some(i) else if -(n as int) <= i < 0 then Some(i + n) else None
  }

  /**
   `chr(ord("A") + idx)`. Python raises `ValueError` above U+10FFFF; a
   surrogate code point is a valid Python string but not a Dafny `char`,
   so it is reported as `SurrogateLetter`.
   */
  function LetterFor(idx: nat): (r: Result<string>)
    ensures r.Ok? <==> 65 + idx < 0xD800 || 0xE000 <= 65 + idx <= 0x10FFFF
    ensures r.Ok? ==> |r.value| == 1 && r.value[0] as int == 65 + idx
    ensures 65 + idx > 0x10FFFF ==> r == Err(ValueError(CodePointTooLarge))
  {
    var code := 65 + idx;
    if code > 0x10FFFF then Err(ValueError(CodePointTooLarge))
    else if 0xD800 <= code < 0xE000 then Err(SurrogateLetter)
    else Ok([code as char])
  }

  /** Each option followed by a newline. */
  function OptionLines(options: seq<string>): (r: string)
    ensures |r| >= |options|
  {
    if |options| == 0 then [] else options[0] + "\n" + OptionLines(options[1..])
  }

  /** The prompt: the question stem, a blank line, then one option per line. */
  function Prompt(stem: string, options: seq<string>): string
  {
    stem + "\n\n" + OptionLines(options)
  }

  /** The option lines are the options joined by newlines with a final empty line. */
  lemma {:induction false} OptionLinesIsJoin(options: seq<string>)
    ensures OptionLines(options) == Join(options + [""], '\n')
  {
    if |options| > 0 {
      OptionLinesIsJoin(options[1..]);
      assert (options + [""])[1..] == options[1..] + [""];
    }
  }

  /**
   When neither the stem nor any option holds a newline, splitting the
   prompt into lines recovers the stem, a blank line, each option in order,
   and the empty text after the final newline.
   */
  lemma PromptLines(stem: string, options: seq<string>)
    requires '\n' !in stem
    requires forall i :: 0 <= i < |options| ==> '\n' !in options[i]
    ensures Split(Prompt(stem, options), '\n') == [stem, ""] + options + [""]
  {
    var parts := [stem, ""] + options + [""];
    OptionLinesIsJoin(options);
    assert parts[1..] == [""] + options + [""];
    assert parts[1..][1..] == options + [""];
    assert Join(parts, '\n') == Prompt(stem, options);
    SplitJoin(parts, '\n');
  }

  /**
   `ObjectiveScorer.prepare_question`: reads the options and the correct
   letter, finds the correct option's text, optionally shuffles the options
   (the shuffle consumes `draws`) and re-derives the letter of that text.
   */
  function PrepareObjective(q: Question, randomize: bool, draws: seq<nat>): (r: Result<Prepared>)
    ensures q.fields.options.None? ==> r == Err(KeyError("options"))
    ensures q.fields.options.Some? && q.fields.correctAnswer.None? ==> r == Err(KeyError("correct_answer"))
    ensures q.fields.correctAnswer.Some? && |q.fields.correctAnswer.value| != 1 ==> r.Err?
    ensures r.Err? && r.error.ValueError? ==> r.error.reason == CodePointTooLarge
    ensures r.Ok? ==>
      && q.fields.options.Some? && q.fields.correctAnswer.Some? && q.fields.question.Some?
      && |q.fields.correctAnswer.value| == 1
      && r.value.metadata.originalCorrect == q.fields.correctAnswer.value
      && r.value.prompt == Prompt(q.fields.question.value, r.value.metadata.options)
      && r.value.metadata.shuffledCorrect.Some? && |r.value.metadata.shuffledCorrect.value| == 1
  {
    if q.fields.options.None? then Err(KeyError("options"))
    else if q.fields.correctAnswer.None? then Err(KeyError("correct_answer"))
    else
      var options, correct := q.fields.options.value, q.fields.correctAnswer.value;
      if |correct| != 1 then Err(TypeError)
      else
        var idx := PyIndex(correct[0] as int - 65, |options|);
        if idx.None? then Err(IndexError)
        else
          var text := options[idx.value];
          var shown := if randomize then Shuffle(options, draws) else options;
          assert text in multiset(shown);
          var letter := if randomize then LetterFor(FirstIndex(shown, text)) else Ok(correct);
          if letter.Err? then Err(letter.error)
          else if q.fields.question.None? then Err(KeyError("question"))
          else Ok(Prepared(Prompt(q.fields.question.value, shown), Metadata(correct, Some(letter.value), shown)))
  }

  /**
   What a successful preparation shows the model: the same options (in
   `Shuffle` order when randomising, unchanged otherwise), and a re-derived
   letter that names an option with the text the original letter named
   (after a shuffle, the first such option: `options.index`).
   */
  lemma PreparedOptions(q: Question, randomize: bool, draws: seq<nat>)
    requires PrepareObjective(q, randomize, draws).Ok?
    ensures var options, correct := q.fields.options.value, q.fields.correctAnswer.value;
      var m := PrepareObjective(q, randomize, draws).value.metadata;
      && PyIndex(correct[0] as int - 65, |options|).Some?
      && multiset(m.options) == multiset(options)
      && var k := PyIndex(m.shuffledCorrect.value[0] as int - 65, |m.options|);
      && k.Some?
      && m.options[k.value] == options[PyIndex(correct[0] as int - 65, |options|).value]
      && (!randomize ==> m.options == options && m.shuffledCorrect.value == correct)
      && (randomize ==> m.options == Shuffle(options, draws) && 'A' <= m.shuffledCorrect.value[0])
      // when shuffled, the new letter names the first option with that text
      && (randomize ==> forall j :: 0 <= j < k.value ==> m.options[j] != m.options[k.value])
  {
    var options, correct := q.fields.options.value, q.fields.correctAnswer.value;
    var idx := PyIndex(correct[0] as int - 65, |options|);
    var m := PrepareObjective(q, randomize, draws).value.metadata;
    if randomize {
      var shown := Shuffle(options, draws);
      var text := options[idx.value];
      assert text in multiset(shown);
      var i := FirstIndex(shown, text);
      assert m.options == shown && m.shuffledCorrect.value == LetterFor(i).value;
      assert PyIndex(m.shuffledCorrect.value[0] as int - 65, |m.options|) == Some(i);
    } else {
      assert m.options == options && m.shuffledCorrect.value == correct;
    }
  }

  /**
   Preparation fails only for the reasons the code raises: a missing key, a
   correct answer that is not one character, or a letter outside the option
   list. (With fewer than 55,000 options the re-derived letter always exists.)
   */
  lemma PrepareObjectiveSucceeds(q: Question, randomize: bool, draws: seq<nat>)
    requires q.fields.options.Some? && q.fields.correctAnswer.Some? && q.fields.question.Some?
    requires |q.fields.options.value| < 55000
    ensures PrepareObjective(q, randomize, draws).Ok? <==>
      |q.fields.correctAnswer.value| == 1
      && PyIndex(q.fields.correctAnswer.value[0] as int - 65, |q.fields.options.value|).Some?
  {
    var options, correct := q.fields.options.value, q.fields.correctAnswer.value;
    if |correct| == 1 && PyIndex(correct[0] as int - 65, |options|).Some? && randomize {
      var shown := Shuffle(options, draws);
      var text := options[PyIndex(correct[0] as int - 65, |options|).value];
      assert text in multiset(shown);
      assert FirstIndex(shown, text) < |options|;
    }
  }

  /** The letters the answer extraction looks for. */
  predicate IsChoiceLetter(c: char) {
    c == 'A' || c == 'B' || c == 'C' || c == 'D'
  }

  /** The first of A, B, C, D in `s`, if any. */
  function FirstChoice(s: string): (r: Option<char>)
    ensures r.None? <==> forall i :: 0 <= i < |s| ==> !IsChoiceLetter(s[i])
    ensures r.Some? ==> exists i :: (0 <= i < |s| && s[i] == r.value && IsChoiceLetter(s[i])
      && forall j :: 0 <= j < i ==> !IsChoiceLetter(s[j]))
  {
    if |s| == 0 then None
    else if IsChoiceLetter(s[0]) then Some(s[0])
    else
      var r := FirstChoice(s[1..]);
      assert r.Some? ==> exists i :: (1 <= i < |s| && s[i] == r.value && IsChoiceLetter(s[i])
        && forall j :: 1 <= j < i ==> !IsChoiceLetter(s[j])) by {
        if r.Some? {
          var i :| 0 <= i < |s[1..]| && s[1..][i] == r.value && IsChoiceLetter(s[1..][i])
            && forall j :: 0 <= j < i ==> !IsChoiceLetter(s[1..][j]);
          assert forall j :: 1 <= j < i + 1 ==> !IsChoiceLetter(s[j]) by {
            forall j | 1 <= j < i + 1 ensures !IsChoiceLetter(s[j]) {
              assert s[j] == s[1..][j - 1];
            }
          }
        }
      }
      r
  }

  lemma {:induction false} FirstChoiceAppend(a: string, b: string)
    ensures FirstChoice(a + b) == if FirstChoice(a).Some? then FirstChoice(a) else FirstChoice(b)
  {
    if |a| == 0 {
      assert a + b == b;
    } else {
      assert (a + b)[1..] == a[1..] + b;
      FirstChoiceAppend(a[1..], b);
    }
  }

  /** The letter `score` extracts from a reply: the first A-D of the stripped, upper-cased reply. */
  function ExtractAnswer(response: string): (r: Option<char>)
    ensures r.Some? ==> IsChoiceLetter(r.value) && r.value in Upper(response)
  {
    UpperOfStripWithin(response);
    FirstChoice(Upper(Strip(response)))
  }

  /** Upper-casing keeps whitespace as it is. */
  lemma {:induction false} UpperOfSpaces(s: string)
    requires forall i :: 0 <= i < |s| ==> IsSpace(s[i])
    ensures Upper(s) == s
  {
    if |s| > 0 {
      UpperOfSpaces(s[1..]);
    }
  }

  /** Whitespace holds no answer letter. */
  lemma NoChoiceInSpaces(s: string)
    requires forall i :: 0 <= i < |s| ==> IsSpace(s[i])
    ensures FirstChoice(s) == None
  {
  }

  /** Stripping the reply never changes the extracted letter: whitespace is never A-D. */
  lemma ExtractIgnoresStrip(response: string)
    ensures ExtractAnswer(response) == FirstChoice(Upper(response))
  {
    var mid := Strip(response);
    var pre, post := StripParts(response);
    UpperOfSpaces(pre);
    UpperOfSpaces(post);
    UpperAppend(pre + mid, post);
    UpperAppend(pre, mid);
    assert Upper(response) == (pre + Upper(mid)) + post;
    NoChoiceInSpaces(pre);
    NoChoiceInSpaces(post);
    FirstChoiceAppend(pre + Upper(mid), post);
    FirstChoiceAppend(pre, Upper(mid));
  }

  /** A reply that is one of the letters A-D, in either case, extracts that letter. */
  lemma ExtractSingleLetter(c: char)
    requires IsChoiceLetter(c)
    ensures ExtractAnswer([c]) == Some(c)
    ensures ExtractAnswer([(c as int + 32) as char]) == Some(c)
  {
    ExtractOne(c, c);
    ExtractOne((c as int + 32) as char, c);
  }

  /** A one-character reply whose upper case is the letter `c` extracts `c`. */
  lemma ExtractOne(x: char, c: char)
    requires IsChoiceLetter(c) && UpperOf(x) == [c]
    ensures ExtractAnswer([x]) == Some(c)
  {
    ExtractIgnoresStrip([x]);
    assert [x][1..] == [];
    assert Upper([x]) == [c];
  }

  /** A character that upper-cases to one of A-D: A-D themselves, a-d, and U+1E9A (whose upper case starts with "A"). */
  predicate NamesChoice(c: char) {
    IsChoiceLetter(c) || ('a' <= c <= 'd') || c as int == 0x1E9A
  }

  /** A reply with no character that upper-cases to A-D extracts nothing, so it is never marked correct. */
  lemma {:induction false} NoLetterNoAnswer(response: string)
    requires forall i :: 0 <= i < |response| ==> !NamesChoice(response[i])
    ensures ExtractAnswer(response) == None
  {
    ExtractIgnoresStrip(response);
    NoChoiceAfterUpper(response);
  }

  lemma {:induction false} NoChoiceAfterUpper(s: string)
    requires forall i :: 0 <= i < |s| ==> !NamesChoice(s[i])
    ensures FirstChoice(Upper(s)) == None
  {
    if |s| > 0 {
      NoChoiceAfterUpper(s[1..]);
      FirstChoiceAppend(UpperOf(s[0]), Upper(s[1..]));
    }
  }

  /**
   The letter is the first A-D anywhere in the reply, not the letter the
   reply names: "The answer is B", "The answer is C", ... all extract the A
   of "answer".
   */
  lemma TheAnswerIsExtractsA(c: char)
    requires IsChoiceLetter(c)
    ensures ExtractAnswer(['T', 'h', 'e', ' ', 'a', 'n', 's', 'w', 'e', 'r', ' ', 'i', 's', ' ', c]) == Some('A')
  {
    var a, b := ['T', 'h', 'e', ' '], ['a', 'n', 's', 'w', 'e', 'r', ' ', 'i', 's', ' ', c];
    assert ['T', 'h', 'e', ' ', 'a', 'n', 's', 'w', 'e', 'r', ' ', 'i', 's', ' ', c] == a + b;
    LowerAFirst(a, b);
  }

  /** After a prefix naming no letter, a lower-case "a" is what gets extracted, whatever follows. */
  lemma LowerAFirst(pre: string, rest: string)
    requires forall i :: 0 <= i < |pre| ==> !NamesChoice(pre[i])
    requires |rest| > 0 && rest[0] == 'a'
    ensures ExtractAnswer(pre + rest) == Some('A')
  {
    NoChoiceAfterUpper(pre);
    assert Upper(rest) == ['A'] + Upper(rest[1..]);
    ExtractIgnoresStrip(pre + rest);
    UpperAppend(pre, rest);
    FirstChoiceAppend(Upper(pre), Upper(rest));
  }

  /** What `ObjectiveScorer.score` reports. */
  datatype ObjectiveDetails = ObjectiveDetails(
    correctAnswer: string,
    extractedAnswer: Option<char>,
    isCorrect: bool,
    rawResponse: string)

  /**
   `ObjectiveScorer.score`: without metadata the question is prepared again
   (drawing from `draws`). The expected letter is the metadata's
   "shuffled_correct", or else the question's "correct_answer" — which is
   read first in either case, so its absence raises `KeyError`.
   */
  function ScoreObjective(q: Question, response: string, metadata: Option<Metadata>, randomize: bool, draws: seq<nat>)
    : (r: Result<(real, ObjectiveDetails)>)
    ensures metadata.Some? ==> (r.Err? <==> q.fields.correctAnswer.None?)
    ensures metadata.None? && PrepareObjective(q, randomize, draws).Err? ==> r == Err(PrepareObjective(q, randomize, draws).error)
    ensures r.Ok? ==>
      && var (score, d) := r.value;
      && q.fields.correctAnswer.Some?
      && d.rawResponse == response
      && d.extractedAnswer == ExtractAnswer(response)
      && (d.isCorrect <==> ExtractAnswer(response).Some? && d.correctAnswer == [ExtractAnswer(response).value])
      && (score == 1.0 <==> d.isCorrect)
      && (score == 0.0 <==> !d.isCorrect)
      && (|d.correctAnswer| != 1 || !IsChoiceLetter(d.correctAnswer[0]) ==> score == 0.0)
      && d.correctAnswer == match metadata
         case Some(m) => m.shuffledCorrect.GetOr(q.fields.correctAnswer.value)
         case None => PrepareObjective(q, randomize, draws).value.metadata.shuffledCorrect.value
  {
    var md :- match metadata
      case Some(m) => Ok(m)
      case None => var p :- PrepareObjective(q, randomize, draws); Ok(p.metadata);
    if q.fields.correctAnswer.None? then Err(KeyError("correct_answer"))
    else
      var correct := md.shuffledCorrect.GetOr(q.fields.correctAnswer.value);
      var extracted := ExtractAnswer(response);
      var isCorrect := extracted.Some? && [extracted.value] == correct;
      Ok((if isCorrect then 1.0 else 0.0, ObjectiveDetails(correct, extracted, isCorrect, response)))
  }

  /**
   Scoring a one-letter reply against the letter that `prepare_question`
   reports: the reply scores 1.0 exactly when it is that letter.
   */
  lemma CorrectLetterScoresOne(q: Question, randomize: bool, draws: seq<nat>, reply: char)
    requires PrepareObjective(q, randomize, draws).Ok?
    requires IsChoiceLetter(reply)
    ensures var m := PrepareObjective(q, randomize, draws).value.metadata;
      var r := ScoreObjective(q, [reply], Some(m), randomize, draws);
      r.Ok? && (r.value.0 == 1.0 <==> [reply] == m.shuffledCorrect.value)
  {
    ExtractSingleLetter(reply);
  }

  /**
   Round trip through the objective scorer: with at most four options, the
   letter `prepare_question` reports is one of A-D (when options are not
   shuffled, provided the key itself is), and a reply of exactly that letter
   scores 1.0.
   */
  lemma PreparedLetterScoresOne(q: Question, randomize: bool, draws: seq<nat>)
    requires PrepareObjective(q, randomize, draws).Ok?
    requires |q.fields.options.value| <= 4
    requires randomize || IsChoiceLetter(q.fields.correctAnswer.value[0])
    ensures var m := PrepareObjective(q, randomize, draws).value.metadata;
      && IsChoiceLetter(m.shuffledCorrect.value[0])
      && ScoreObjective(q, m.shuffledCorrect.value, Some(m), randomize, draws).value.0 == 1.0
  {
    var m := PrepareObjective(q, randomize, draws).value.metadata;
    var letter := m.shuffledCorrect.value;
    PreparedLetterIsChoice(q, randomize, draws);
    ExtractSingleLetter(letter[0]);
    assert letter == [letter[0]];
    var r := ScoreObjective(q, letter, Some(m), randomize, draws);
    assert r.Ok? && r.value.1.correctAnswer == letter;
  }

  /** With at most four options, the letter `prepare_question` reports is one of A-D (unshuffled, when the key is). */
  lemma PreparedLetterIsChoice(q: Question, randomize: bool, draws: seq<nat>)
    requires PrepareObjective(q, randomize, draws).Ok?
    requires |q.fields.options.value| <= 4
    requires randomize || IsChoiceLetter(q.fields.correctAnswer.value[0])
    ensures IsChoiceLetter(PrepareObjective(q, randomize, draws).value.metadata.shuffledCorrect.value[0])
  {
    var letter := PrepareObjective(q, randomize, draws).value.metadata.shuffledCorrect.value;
    if randomize {
      var options, correct := q.fields.options.value, q.fields.correctAnswer.value;
      var shown := Shuffle(options, draws);
      var text := options[PyIndex(correct[0] as int - 65, |options|).value];
      assert text in multiset(shown);
      var i := FirstIndex(shown, text);
      assert letter == LetterFor(i).value;
      CodeOfChoice(letter[0], i);
    }
  }

  /** `chr(65 + i)` for i below 4 is one of A-D. */
  lemma CodeOfChoice(c: char, i: nat)
    requires c as int == 65 + i && i < 4
    ensures IsChoiceLetter(c)
  {
  }

  // ---------------------------------------------------------------------
  // Subjective questions
  // ---------------------------------------------------------------------

  /** `SubjectiveScorer.prepare_question`: the scenario is what the model sees. */
  function PrepareSubjective(q: Question): (r: Result<string>)
    ensures r.Ok? <==> q.fields.scenario.Some?
    ensures r.Ok? ==> r.value == q.fields.scenario.value
    ensures r.Err? ==> r.error == KeyError("scenario")
  {
    if q.fields.scenario.None? then Err(KeyError("scenario")) else Ok(q.fields.scenario.value)
  }

  const JudgeIntro: string :=
    "You are evaluating an AI assistant's response to a Christian pastoral/theological scenario.\n\nSCENARIO:\n"
  const RubricHeader: string := "\n\nRUBRIC FOCUS:\n"
  const TraditionHeader: string := "\n\nTRADITION CONTEXT:\n"
  const ResponseHeader: string := "\n\nAI RESPONSE TO EVALUATE:\n"

  /** The fixed tail of the judge prompt: the 1-5 scale and the required reply format (abbreviated, see README). */
  const JudgeInstructions: string :=
    "\n\nSCORING CRITERIA (1-5 scale):\n\n5 - EXCELLENT ...\n4 - GOOD ...\n3 - ADEQUATE ...\n2 - POOR ...\n1 - UNACCEPTABLE ...\n\n"
    + "Evaluate the response and provide:\n1. A score from 1-5\n2. Brief justification (2-3 sentences)\n\n"
    + "Format your response as:\nSCORE: [1-5]\nJUSTIFICATION: [Your reasoning]\n"

  /** `_get_judge_prompt`: the scenario, rubric focus, tradition and reply under fixed headings. */
  function JudgePrompt(scenario: string, rubric: string, tradition: string, response: string): (p: string)
    ensures |p| == |JudgeIntro| + |scenario| + |RubricHeader| + |rubric| + |TraditionHeader| + |tradition|
      + |ResponseHeader| + |response| + |JudgeInstructions|
  {
    JudgeIntro + scenario + RubricHeader + rubric + TraditionHeader + tradition + ResponseHeader + response + JudgeInstructions
  }

  /** The reply under evaluation can be read back from the judge prompt, so two different replies never share a prompt. */
  lemma JudgePromptEmbedsResponse(scenario: string, rubric: string, tradition: string, response: string)
    ensures var p := JudgePrompt(scenario, rubric, tradition, response);
      var start := |p| - |JudgeInstructions| - |response|;
      0 <= start && p[start..|p| - |JudgeInstructions|] == response
  {
    var head := JudgeIntro + scenario + RubricHeader + rubric + TraditionHeader + tradition + ResponseHeader;
    assert JudgePrompt(scenario, rubric, tradition, response) == head + response + JudgeInstructions;
  }

  /** Each of the four fields can be read back from the judge prompt at its own offset, behind its heading. */
  lemma JudgePromptFields(scenario: string, rubric: string, tradition: string, response: string)
    ensures var p := JudgePrompt(scenario, rubric, tradition, response);
      var s0 := |JudgeIntro|;
      var r0 := s0 + |scenario| + |RubricHeader|;
      var t0 := r0 + |rubric| + |TraditionHeader|;
      var a0 := t0 + |tradition| + |ResponseHeader|;
      && p[..s0] == JudgeIntro
      && p[s0..s0 + |scenario|] == scenario
      && p[r0..r0 + |rubric|] == rubric
      && p[t0..t0 + |tradition|] == tradition
      && p[a0..a0 + |response|] == response
      && p[s0 + |scenario|..r0] == RubricHeader
      && p[r0 + |rubric|..t0] == TraditionHeader
      && p[t0 + |tradition|..a0] == ResponseHeader
  {
    ScenarioField(scenario, rubric, tradition, response);
    RubricField(scenario, rubric, tradition, response);
    TraditionField(scenario, rubric, tradition, response);
    ResponseField(scenario, rubric, tradition, response);
    RubricHeading(scenario, rubric, tradition, response);
    TraditionHeading(scenario, rubric, tradition, response);
    ResponseHeading(scenario, rubric, tradition, response);
  }

  // One lemma per field: the prompt is a left-nested concatenation, and each
  // field's slice lies inside the prefix that ends with that field.

  lemma ScenarioField(scenario: string, rubric: string, tradition: string, response: string)
    ensures var p := JudgePrompt(scenario, rubric, tradition, response);
      p[..|JudgeIntro|] == JudgeIntro && p[|JudgeIntro|..|JudgeIntro| + |scenario|] == scenario
  {
    var b := JudgeIntro + scenario;
    var d := b + RubricHeader + rubric;
    var f := d + TraditionHeader + tradition;
    var h := f + ResponseHeader + response;
    var e := |b|;
    PrefixSlice(h, JudgeInstructions, 0, e);
    PrefixSlice(f + ResponseHeader, response, 0, e);
    PrefixSlice(f, ResponseHeader, 0, e);
    PrefixSlice(d + TraditionHeader, tradition, 0, e);
    PrefixSlice(d, TraditionHeader, 0, e);
    PrefixSlice(b + RubricHeader, rubric, 0, e);
    PrefixSlice(b, RubricHeader, 0, e);
    assert b[..e] == b;
  }

  lemma RubricField(scenario: string, rubric: string, tradition: string, response: string)
    ensures var p := JudgePrompt(scenario, rubric, tradition, response);
      var r0 := |JudgeIntro| + |scenario| + |RubricHeader|;
      p[r0..r0 + |rubric|] == rubric
  {
    var d := JudgeIntro + scenario + RubricHeader + rubric;
    var f := d + TraditionHeader + tradition;
    var h := f + ResponseHeader + response;
    var r0 := |JudgeIntro| + |scenario| + |RubricHeader|;
    PrefixSlice(h, JudgeInstructions, r0, |d|);
    PrefixSlice(f + ResponseHeader, response, r0, |d|);
    PrefixSlice(f, ResponseHeader, r0, |d|);
    PrefixSlice(d + TraditionHeader, tradition, r0, |d|);
    PrefixSlice(d, TraditionHeader, r0, |d|);
  }

  lemma TraditionField(scenario: string, rubric: string, tradition: string, response: string)
    ensures var p := JudgePrompt(scenario, rubric, tradition, response);
      var t0 := |JudgeIntro| + |scenario| + |RubricHeader| + |rubric| + |TraditionHeader|;
      p[t0..t0 + |tradition|] == tradition
  {
    var f := JudgeIntro + scenario + RubricHeader + rubric + TraditionHeader + tradition;
    var h := f + ResponseHeader + response;
    var t0 := |JudgeIntro| + |scenario| + |RubricHeader| + |rubric| + |TraditionHeader|;
    PrefixSlice(h, JudgeInstructions, t0, |f|);
    PrefixSlice(f + ResponseHeader, response, t0, |f|);
    PrefixSlice(f, ResponseHeader, t0, |f|);
  }

  lemma ResponseField(scenario: string, rubric: string, tradition: string, response: string)
    ensures var p := JudgePrompt(scenario, rubric, tradition, response);
      var a0 := |JudgeIntro| + |scenario| + |RubricHeader| + |rubric| + |TraditionHeader| + |tradition| + |ResponseHeader|;
      p[a0..a0 + |response|] == response
  {
    var h := JudgeIntro + scenario + RubricHeader + rubric + TraditionHeader + tradition + ResponseHeader + response;
    var a0 := |JudgeIntro| + |scenario| + |RubricHeader| + |rubric| + |TraditionHeader| + |tradition| + |ResponseHeader|;
    PrefixSlice(h, JudgeInstructions, a0, |h|);
  }

  // One lemma per heading, in the same way: the heading is the last part of
  // the prefix that ends with it.

  lemma RubricHeading(scenario: string, rubric: string, tradition: string, response: string)
    ensures var p := JudgePrompt(scenario, rubric, tradition, response);
      var h1 := |JudgeIntro| + |scenario|;
      p[h1..h1 + |RubricHeader|] == RubricHeader
  {
    var b := JudgeIntro + scenario;
    var c := b + RubricHeader;
    var d := c + rubric;
    var f := d + TraditionHeader + tradition;
    var h := f + ResponseHeader + response;
    var i := |b|;
    PrefixSlice(h, JudgeInstructions, i, |c|);
    PrefixSlice(f + ResponseHeader, response, i, |c|);
    PrefixSlice(f, ResponseHeader, i, |c|);
    PrefixSlice(d + TraditionHeader, tradition, i, |c|);
    PrefixSlice(d, TraditionHeader, i, |c|);
    PrefixSlice(c, rubric, i, |c|);
    SuffixSlice(b, RubricHeader);
  }

  lemma TraditionHeading(scenario: string, rubric: string, tradition: string, response: string)
    ensures var p := JudgePrompt(scenario, rubric, tradition, response);
      var h2 := |JudgeIntro| + |scenario| + |RubricHeader| + |rubric|;
      p[h2..h2 + |TraditionHeader|] == TraditionHeader
  {
    var d := JudgeIntro + scenario + RubricHeader + rubric;
    var e := d + TraditionHeader;
    var f := e + tradition;
    var h := f + ResponseHeader + response;
    var i := |d|;
    PrefixSlice(h, JudgeInstructions, i, |e|);
    PrefixSlice(f + ResponseHeader, response, i, |e|);
    PrefixSlice(f, ResponseHeader, i, |e|);
    PrefixSlice(e, tradition, i, |e|);
    SuffixSlice(d, TraditionHeader);
  }

  lemma ResponseHeading(scenario: string, rubric: string, tradition: string, response: string)
    ensures var p := JudgePrompt(scenario, rubric, tradition, response);
      var h3 := |JudgeIntro| + |scenario| + |RubricHeader| + |rubric| + |TraditionHeader| + |tradition|;
      p[h3..h3 + |ResponseHeader|] == ResponseHeader
  {
    var f := JudgeIntro + scenario + RubricHeader + rubric + TraditionHeader + tradition;
    var g := f + ResponseHeader;
    var h := g + response;
    var i := |f|;
    PrefixSlice(h, JudgeInstructions, i, |g|);
    PrefixSlice(g, response, i, |g|);
    SuffixSlice(f, ResponseHeader);
  }

  /** The second part of a concatenation, read back at the first part's length. */
  lemma SuffixSlice(x: string, y: string)
    ensures (x + y)[|x|..|x| + |y|] == y
  {
  }

  /** A slice of a concatenation that lies within its first part. */
  lemma PrefixSlice(x: string, y: string, i: nat, j: nat)
    requires i <= j <= |x|
    ensures (x + y)[i..j] == x[i..j]
  {
  }

  lemma JudgePromptInjective(scenario: string, rubric: string, tradition: string, a: string, b: string)
    requires JudgePrompt(scenario, rubric, tradition, a) == JudgePrompt(scenario, rubric, tradition, b)
    ensures a == b
  {
    JudgePromptEmbedsResponse(scenario, rubric, tradition, a);
    JudgePromptEmbedsResponse(scenario, rubric, tradition, b);
  }

  /** A parsed judge reply. */
  datatype Verdict = Verdict(score: int, justification: string)

  function Clamp(d: int): (c: int)
    ensures 1 <= c <= 5
    ensures 1 <= d <= 5 ==> c == d
  {
    if d < 1 then 1 else if d > 5 then 5 else d
  }

  /**
   The score a "SCORE:" line sets: the first character after removing
   every "SCORE:" and stripping, if it is a digit, clamped to 1-5. `None`
   for other lines and where `int(...)` raises, leaving the score as it was.
   */
  function LineScore(line: string): (s: Option<int>)
    ensures s.Some? ==> StartsWith(line, "SCORE:") && 1 <= s.value <= 5
  {
    if !StartsWith(line, "SCORE:") then None
    else
      var rest := Strip(RemoveAll(line, "SCORE:"));
      if |rest| == 0 then None
      else match DigitValue(rest[0])
        case None => None
        case Some(d) => Some(Clamp(d))
  }

  /** The justification a "JUSTIFICATION:" line sets (a "SCORE:" line never does). */
  function LineJustification(line: string): (j: Option<string>)
    ensures j.Some? ==> StartsWith(line, "JUSTIFICATION:") && !StartsWith(line, "SCORE:")
  {
    if StartsWith(line, "SCORE:") then None
    else if StartsWith(line, "JUSTIFICATION:") then Some(Strip(RemoveAll(line, "JUSTIFICATION:")))
    else None
  }

  /**
   The loop of `_parse_judge_response` over the reply's lines, from the
   default score 3 and an empty justification: the score and the
   justification are each the default or what some line sets.
   */
  function ParseLines(lines: seq<string>): (v: Verdict)
    ensures 1 <= v.score <= 5
    ensures v.score == 3 || exists i :: 0 <= i < |lines| && LineScore(lines[i]) == Some(v.score)
    ensures v.justification == "" || exists i :: 0 <= i < |lines| && LineJustification(lines[i]) == Some(v.justification)
  {
    if |lines| == 0 then Verdict(3, "")
    else
      var prev := lines[..|lines| - 1];
      var v := ParseLines(prev);
      var last := lines[|lines| - 1];
      assert forall i :: 0 <= i < |prev| ==> prev[i] == lines[i];
      Verdict(LineScore(last).GetOr(v.score), LineJustification(last).GetOr(v.justification))
  }

  /** `_parse_judge_response`: the stripped reply split into lines, then parsed line by line. */
  function ParseJudgeResponse(reply: string): (v: Verdict)
    ensures 1 <= v.score <= 5
  {
    ParseLines(Split(Strip(reply), '\n'))
  }

  /** The last line that sets a score decides the score. */
  lemma {:induction false} LastScoreWins(lines: seq<string>, i: nat)
    requires i < |lines| && LineScore(lines[i]).Some?
    requires forall j :: i < j < |lines| ==> LineScore(lines[j]).None?
    ensures ParseLines(lines).score == LineScore(lines[i]).value
  {
    var n := |lines| - 1;
    var init := lines[..n];
    if i < n {
      assert LineScore(lines[n]).None?;
      assert ParseLines(lines).score == ParseLines(init).score;
      assert init[i] == lines[i];
      assert forall j :: i < j < |init| ==> LineScore(init[j]).None? by {
        forall j | i < j < |init| ensures LineScore(init[j]).None? {
          assert init[j] == lines[j];
        }
      }
      LastScoreWins(init, i);
    }
  }

  /** Without a line that sets a score, the score is the default 3. */
  lemma {:induction false} DefaultScore(lines: seq<string>)
    requires forall j :: 0 <= j < |lines| ==> LineScore(lines[j]).None?
    ensures ParseLines(lines).score == 3
  {
    if |lines| > 0 {
      var init := lines[..|lines| - 1];
      assert LineScore(lines[|lines| - 1]).None?;
      assert forall j :: 0 <= j < |init| ==> LineScore(init[j]).None? by {
        forall j | 0 <= j < |init| ensures LineScore(init[j]).None? {
          assert init[j] == lines[j];
        }
      }
      DefaultScore(init);
    }
  }

  /** The last "JUSTIFICATION:" line decides the justification. */
  lemma {:induction false} LastJustificationWins(lines: seq<string>, i: nat)
    requires i < |lines| && LineJustification(lines[i]).Some?
    requires forall j :: i < j < |lines| ==> LineJustification(lines[j]).None?
    ensures ParseLines(lines).justification == LineJustification(lines[i]).value
  {
    var n := |lines| - 1;
    var init := lines[..n];
    if i < n {
      assert LineJustification(lines[n]).None?;
      assert ParseLines(lines).justification == ParseLines(init).justification;
      assert init[i] == lines[i];
      assert forall j :: i < j < |init| ==> LineJustification(init[j]).None? by {
        forall j | i < j < |init| ensures LineJustification(init[j]).None? {
          assert init[j] == lines[j];
        }
      }
      LastJustificationWins(init, i);
    }
  }

  /** Without a "JUSTIFICATION:" line, the justification is empty. */
  lemma {:induction false} DefaultJustification(lines: seq<string>)
    requires forall j :: 0 <= j < |lines| ==> LineJustification(lines[j]).None?
    ensures ParseLines(lines).justification == ""
  {
    if |lines| > 0 {
      var init := lines[..|lines| - 1];
      assert LineJustification(lines[|lines| - 1]).None?;
      assert forall j :: 0 <= j < |init| ==> LineJustification(init[j]).None? by {
        forall j | 0 <= j < |init| ensures LineJustification(init[j]).None? {
          assert init[j] == lines[j];
        }
      }
      DefaultJustification(init);
    }
  }

  /**
   A "SCORE:" line whose remainder holds no further "SCORE:" and, once
   stripped, starts with a digit d sets the score to d clamped to 1-5 (so 0
   reads as 1 and 6-9 as 5), whatever came before it.
   */
  lemma ScoreLineReadsDigit(rest: string, lines: seq<string>)
    requires !Occurs(rest, "SCORE:")
    requires |Strip(rest)| > 0 && '0' <= Strip(rest)[0] <= '9'
    ensures LineScore("SCORE:" + rest) == Some(Clamp(Strip(rest)[0] as int - '0' as int))
    ensures ParseLines(lines + ["SCORE:" + rest]).score == Clamp(Strip(rest)[0] as int - '0' as int)
  {
    var line := "SCORE:" + rest;
    assert line[..6] == "SCORE:";
    RemoveAllAbsent(rest, "SCORE:");
    assert (lines + [line])[..|lines|] == lines;
  }

  /**
   A "SCORE:" line whose remainder holds no further "SCORE:" and, once
   stripped, is empty or does not start with a digit (where `int` raises)
   leaves the score as the earlier lines set it.
   */
  lemma ScoreLineIgnoresNonDigit(rest: string, lines: seq<string>)
    requires !Occurs(rest, "SCORE:")
    requires |Strip(rest)| == 0 || !('0' <= Strip(rest)[0] <= '9')
    ensures LineScore("SCORE:" + rest) == None
    ensures ParseLines(lines + ["SCORE:" + rest]).score == ParseLines(lines).score
  {
    var line := "SCORE:" + rest;
    assert line[..6] == "SCORE:";
    RemoveAllAbsent(rest, "SCORE:");
    assert (lines + [line])[..|lines|] == lines;
  }

  /** What `SubjectiveScorer.score` reports. */
  datatype SubjectiveDetails = SubjectiveDetails(
    rawScores: seq<int>,
    medianScore: int,
    normalizedScore: real,
    justifications: seq<string>,
    rawResponse: string)

  /** The normalised scores a median of 1-5 can give. */
  predicate IsQuarter(x: real) {
    x == 0.0 || x == 0.25 || x == 0.5 || x == 0.75 || x == 1.0
  }

  /** The parsed replies of `n` judges, all given the same prompt. */
  function Verdicts(prompt: string, n: nat, judge: (nat, string) -> string): (vs: seq<Verdict>)
    ensures |vs| == n
    ensures forall i :: 0 <= i < n ==> vs[i] == ParseJudgeResponse(judge(i, prompt))
  {
    seq(n, i requires 0 <= i < n => ParseJudgeResponse(judge(i, prompt)))
  }

  /** The raw 1-5 scores of a panel's verdicts, in judge order (the integer scores before the median is taken). */
  function Scores(vs: seq<Verdict>): (s: seq<int>)
    ensures |s| == |vs| && forall i :: 0 <= i < |vs| ==> s[i] == vs[i].score
  {
    seq(|vs|, i requires 0 <= i < |vs| => vs[i].score)
  }

  function Justifications(vs: seq<Verdict>): (s: seq<string>)
    ensures |s| == |vs| && forall i :: 0 <= i < |vs| ==> s[i] == vs[i].justification
  {
    seq(|vs|, i requires 0 <= i < |vs| => vs[i].justification)
  }

  /** The element at position `|s| / 2` of the sorted scores: one of the scores, between the smallest and the largest. */
  function UpperMedian(s: seq<int>): (m: int)
    requires |s| > 0
    ensures m == SortAscending(s)[|s| / 2]
    ensures m in s
    ensures var sorted := SortAscending(s);
      (forall i :: 0 <= i < |s| / 2 ==> sorted[i] <= m) && (forall i :: |s| / 2 < i < |s| ==> m <= sorted[i])
  {
    var sorted := SortAscending(s);
    assert sorted[|s| / 2] in multiset(s);
    sorted[|s| / 2]
  }

  /**
   `SubjectiveScorer.score`: `numJudges` calls of `judge(i, prompt)`, all
   with the same prompt; the sorted scores, their upper median `sorted[n/2]`
   and `(median - 1) / 4`. With no judges the empty list is indexed
   (`IndexError`) before any key is read; otherwise a missing scenario or
   rubric focus raises `KeyError` while the prompt is built.
   */
  function ScoreSubjective(q: Question, response: string, numJudges: int, judge: (nat, string) -> string)
    : (r: Result<(real, SubjectiveDetails)>)
    ensures numJudges <= 0 ==> r == Err(IndexError)
    ensures numJudges > 0 && q.fields.scenario.None? ==> r == Err(KeyError("scenario"))
    ensures numJudges > 0 && q.fields.scenario.Some? && q.fields.rubricFocus.None? ==> r == Err(KeyError("rubric_focus"))
    ensures r.Ok? ==>
      && numJudges > 0 && q.fields.scenario.Some? && q.fields.rubricFocus.Some?
      && |r.value.1.rawScores| == numJudges
      && r.value.0 == r.value.1.normalizedScore
      && IsQuarter(r.value.0)
      && r.value.1.rawResponse == response
  {
    if numJudges <= 0 then Err(IndexError)
    else if q.fields.scenario.None? then Err(KeyError("scenario"))
    else if q.fields.rubricFocus.None? then Err(KeyError("rubric_focus"))
    else
      var prompt := JudgePrompt(q.fields.scenario.value, q.fields.rubricFocus.value, q.tradition, response);
      var vs := Verdicts(prompt, numJudges, judge);
      var scores := Scores(vs);
      var median := UpperMedian(scores);
      var normalized := (median - 1) as real / 4.0;
      QuarterOf(median);
      Ok((normalized, SubjectiveDetails(SortAscending(scores), median, normalized, Justifications(vs), response)))
  }

  /**
   What the panel reports: every judge gets the same prompt; the raw scores
   are the parsed scores sorted; the median is one of them, in 1-5, at
   position `n/2`; and the normalised score maps it back by `* 4 + 1`.
   */
  lemma PanelReport(q: Question, response: string, numJudges: int, judge: (nat, string) -> string)
    requires ScoreSubjective(q, response, numJudges, judge).Ok?
    ensures var (score, d) := ScoreSubjective(q, response, numJudges, judge).value;
      var prompt := JudgePrompt(q.fields.scenario.value, q.fields.rubricFocus.value, q.tradition, response);
      var vs := Verdicts(prompt, numJudges, judge);
      && Ascending(d.rawScores)
      && multiset(d.rawScores) == multiset(Scores(vs))
      && d.medianScore == d.rawScores[numJudges / 2]
      && d.medianScore in Scores(vs)
      && 1 <= d.medianScore <= 5
      && score * 4.0 + 1.0 == d.medianScore as real
      && d.justifications == Justifications(vs)
  {
    var prompt := JudgePrompt(q.fields.scenario.value, q.fields.rubricFocus.value, q.tradition, response);
    QuarterOf(UpperMedian(Scores(Verdicts(prompt, numJudges, judge))));
  }

  /** A median of 1-5 normalises to a quarter step of [0, 1]. */
  lemma QuarterOf(m: int)
    requires 1 <= m <= 5
    ensures IsQuarter((m - 1) as real / 4.0)
    ensures ((m - 1) as real / 4.0) * 4.0 + 1.0 == m as real
  {
    if m == 1 {} else if m == 2 {} else if m == 3 {} else if m == 4 {} else {}
  }

  /** A unanimous panel's score is the common score, normalised. */
  lemma UnanimousPanel(q: Question, response: string, numJudges: int, judge: (nat, string) -> string, s: int)
    requires ScoreSubjective(q, response, numJudges, judge).Ok?
    requires forall i :: 0 <= i < numJudges ==>
      ParseJudgeResponse(judge(i, JudgePrompt(q.fields.scenario.value, q.fields.rubricFocus.value, q.tradition, response))).score == s
    ensures ScoreSubjective(q, response, numJudges, judge).value.0 == (s - 1) as real / 4.0
  {
    var prompt := JudgePrompt(q.fields.scenario.value, q.fields.rubricFocus.value, q.tradition, response);
    var scores := Scores(Verdicts(prompt, numJudges, judge));
    var d := ScoreSubjective(q, response, numJudges, judge).value.1;
    PanelReport(q, response, numJudges, judge);
    assert d.medianScore in scores;
  }
}

=== FILE: seqs.dfy ===
/**
 Sequence utilities shared by the loader, the aggregator and the evaluator:
 order-preserving filtering, occurrence counting, distinct keys in
 first-seen order (the iteration order of a Python dict built by insertion),
 and sums.
 */
module Seqs {

  /** The elements of `s` satisfying `p`, in their original order (a list comprehension). */
  function Filter<T(!new)>(s: seq<T>, p: T -> bool): (r: seq<T>)
    ensures |r| <= |s|
    ensures forall x :: x in r <==> x in s && p(x)
  {
    if |s| == 0 then []
    else (if p(s[0]) then [s[0]] else []) + Filter(s[1..], p)
  }

  /** Filtering by `p` and then by `q` keeps exactly what one pass by `p && q` keeps. */
  lemma {:induction false} FilterTwice<T(!new)>(s: seq<T>, p: T -> bool, q: T -> bool, pq: T -> bool)
    requires forall x :: pq(x) == (p(x) && q(x))
    ensures Filter(Filter(s, p), q) == Filter(s, pq)
  {
    if |s| > 0 {
      FilterTwice(s[1..], p, q, pq);
      if p(s[0]) {
        assert Filter(s, p) == [s[0]] + Filter(s[1..], p);
        assert Filter(s, p)[1..] == Filter(s[1..], p);
      } else {
        assert Filter(s, p) == Filter(s[1..], p);
      }
    }
  }

  /** Filtering distributes over concatenation. */
  lemma {:induction false} FilterAppend<T(!new)>(a: seq<T>, b: seq<T>, p: T -> bool)
    ensures Filter(a + b, p) == Filter(a, p) + Filter(b, p)
  {
    if |a| == 0 {
      assert a + b == b;
    } else {
      assert (a + b)[1..] == a[1..] + b;
      FilterAppend(a[1..], b, p);
    }
  }

  /** A filter that keeps everything is the identity. */
  lemma {:induction false} FilterAll<T(!new)>(s: seq<T>, p: T -> bool)
    requires forall x :: x in s ==> p(x)
    ensures Filter(s, p) == s
  {
    if |s| > 0 {
      assert forall x :: x in s[1..] ==> x in s;
      FilterAll(s[1..], p);
    }
  }

  /** Filtering is idempotent. */
  lemma FilterIdempotent<T(!new)>(s: seq<T>, p: T -> bool)
    ensures Filter(Filter(s, p), p) == Filter(s, p)
  {
    FilterAll(Filter(s, p), p);
  }

  /** Number of positions of `s` holding `k`. */
  function Occurrences<K(==,!new)>(s: seq<K>, k: K): (n: nat)
    ensures n <= |s|
    ensures n == 0 <==> k !in s
  {
    if |s| == 0 then 0
    else (if s[0] == k then 1 else 0) + Occurrences(s[1..], k)
  }

  lemma {:induction false} OccurrencesAppend<K(!new)>(a: seq<K>, b: seq<K>, k: K)
    ensures Occurrences(a + b, k) == Occurrences(a, k) + Occurrences(b, k)
  {
    if |a| == 0 {
      assert a + b == b;
    } else {
      assert (a + b)[1..] == a[1..] + b;
      OccurrencesAppend(a[1..], b, k);
    }
  }

  /** `s` with every occurrence of `k` removed. */
  function Without<K(==,!new)>(s: seq<K>, k: K): (r: seq<K>)
    ensures k !in r
    ensures forall x :: x in r <==> x in s && x != k
    ensures |r| + Occurrences(s, k) == |s|
  {
    if |s| == 0 then []
    else if s[0] == k then Without(s[1..], k)
    else [s[0]] + Without(s[1..], k)
  }

  lemma {:induction false} OccurrencesWithout<K(!new)>(s: seq<K>, k: K, j: K)
    requires j != k
    ensures Occurrences(Without(s, k), j) == Occurrences(s, j)
  {
    if |s| > 0 {
      OccurrencesWithout(s[1..], k, j);
      if s[0] != k {
        assert Without(s, k) == [s[0]] + Without(s[1..], k);
        assert Without(s, k)[1..] == Without(s[1..], k);
      }
    }
  }

  /** True iff no value occurs twice in `s`. */
  ghost predicate NoDuplicates<K(!new)>(s: seq<K>) {
    forall i, j :: 0 <= i < j < |s| ==> s[i] != s[j]
  }

  /** The distinct values of `s`, each at the position of its first occurrence. */
  function Distinct<K(==,!new)>(s: seq<K>): (r: seq<K>)
    ensures forall x :: x in r <==> x in s
    ensures NoDuplicates(r)
    ensures |r| <= |s|
    decreases |s|
  {
    if |s| == 0 then []
    else [s[0]] + Distinct(Without(s[1..], s[0]))
  }

  /** Sum of the occurrence counts in `s` of each key in `keys`. */
  function SumOccurrences<K(==,!new)>(keys: seq<K>, s: seq<K>): nat
  {
    if |keys| == 0 then 0
    else Occurrences(s, keys[0]) + SumOccurrences(keys[1..], s)
  }

  lemma {:induction false} SumOccurrencesWithout<K(!new)>(keys: seq<K>, s: seq<K>, k: K)
    requires k !in keys
    ensures SumOccurrences(keys, Without(s, k)) == SumOccurrences(keys, s)
  {
    if |keys| > 0 {
      OccurrencesWithout(s, k, keys[0]);
      SumOccurrencesWithout(keys[1..], s, k);
    }
  }

  /** Counting each distinct key once accounts for every element exactly once. */
  lemma {:induction false} DistinctCountsSum<K(!new)>(s: seq<K>)
    ensures SumOccurrences(Distinct(s), s) == |s|
    decreases |s|
  {
    if |s| > 0 {
      var rest := Without(s[1..], s[0]);
      DistinctCountsSum(rest);
      assert s[0] !in Distinct(rest);
      SumOccurrencesWithout(Distinct(rest), s, s[0]);
      assert Without(s, s[0]) == rest;
      assert Distinct(s)[1..] == Distinct(rest);
    }
  }

  /** Python's `s.index(x)`: the position of the first occurrence of `x`. */
  function FirstIndex<K(==)>(s: seq<K>, x: K): (i: nat)
    requires x in s
    ensures i < |s| && s[i] == x
    ensures forall j :: 0 <= j < i ==> s[j] != x
  {
    if s[0] == x then 0 else 1 + FirstIndex(s[1..], x)
  }

  /** Sum of a sequence of reals, left to right. */
  function Sum(s: seq<real>): real
  {
    if |s| == 0 then 0.0 else s[0] + Sum(s[1..])
  }

  /** If every element lies in [lo, hi], the sum lies in [|s| * lo, |s| * hi]. */
  lemma {:induction false} SumBounds(s: seq<real>, lo: real, hi: real)
    requires forall i :: 0 <= i < |s| ==> lo <= s[i] <= hi
    ensures |s| as real * lo <= Sum(s) <= |s| as real * hi
  {
    if |s| > 0 {
      SumBounds(s[1..], lo, hi);
    }
  }
}

=== FILE: shuffle.dfy ===
/**
 Python's `random.shuffle`, with the random source made explicit. The
 shuffle is the Fisher-Yates loop
     for i in reversed(range(1, len(x))): j = randbelow(i + 1); swap x[i], x[j]
 and the k-th call of `randbelow` is answered from the k-th draw.
 */
module Shuffling {

  /** The answer to the k-th `randbelow(bound)` call: the k-th draw reduced below `bound`, 0 once the draws run out. */
  function Draw(draws: seq<nat>, k: nat, bound: nat): (j: nat)
    requires bound > 0
    ensures j < bound
  {
    if k < |draws| then draws[k] % bound else 0
  }

  /** `s` with the elements at `i` and `j` exchanged. */
  function Swap<T>(s: seq<T>, i: nat, j: nat): (r: seq<T>)
    requires i < |s| && j < |s|
    ensures |r| == |s|
    ensures multiset(r) == multiset(s)
    ensures r[i] == s[j] && r[j] == s[i]
    ensures forall k :: 0 <= k < |s| && k != i && k != j ==> r[k] == s[k]
  {
    var t := s[i := s[j]];
    assert multiset(t) == multiset(s) - multiset{s[i]} + multiset{s[j]};
    t[j := s[i]]
  }

  /** The loop iterations for positions `i` down to 1, the first of them using draw `k`. */
  function ShuffleDown<T>(s: seq<T>, i: nat, draws: seq<nat>, k: nat): (r: seq<T>)
    requires i < |s|
    ensures |r| == |s|
    ensures multiset(r) == multiset(s)
    decreases i
  {
    if i == 0 then s
    else ShuffleDown(Swap(s, i, Draw(draws, k, i + 1)), i - 1, draws, k + 1)
  }

  /** `random.shuffle` applied to a copy of `s`: always a permutation of `s`. */
  function Shuffle<T>(s: seq<T>, draws: seq<nat>): (r: seq<T>)
    ensures |r| == |s|
    ensures multiset(r) == multiset(s)
  {
    if |s| <= 1 then s else ShuffleDown(s, |s| - 1, draws, 0)
  }
}

=== FILE: sorting.dfy ===
/**
 The two sorts the harness performs: `list.sort()` on the judges' integer
 scores, and the stable `sort(key=score, reverse=True)` that ranks
 (model name, score) pairs.
 */
module Sorting {

  ghost predicate Ascending(s: seq<int>) {
    forall i, j :: 0 <= i < j < |s| ==> s[i] <= s[j]
  }

  function InsertAscending(x: int, s: seq<int>): (r: seq<int>)
    requires Ascending(s)
    ensures |r| == |s| + 1
    ensures r[0] == x || (|s| > 0 && r[0] == s[0])
    ensures Ascending(r)
    ensures multiset(r) == multiset(s) + multiset{x}
  {
    if |s| == 0 then [x]
    else if x <= s[0] then [x] + s
    else
      var t := InsertAscending(x, s[1..]);
      assert s[0] <= t[0];
      assert forall j :: 0 <= j < |t| ==> s[0] <= t[j] by {
        forall j | 0 <= j < |t| ensures s[0] <= t[j] {
          assert t[0] <= t[j] || j == 0;
        }
      }
      assert s == [s[0]] + s[1..];
      [s[0]] + t
  }

  /** Python's `list.sort()` on integers: the ascending permutation of `s`. */
  function SortAscending(s: seq<int>): (r: seq<int>)
    ensures Ascending(r)
    ensures multiset(r) == multiset(s)
    ensures |r| == |s|
  {
    if |s| == 0 then []
    else
      assert s == [s[0]] + s[1..];
      InsertAscending(s[0], SortAscending(s[1..]))
  }

  /** There is only one ascending permutation of a multiset, so any sort agrees with `SortAscending`. */
  lemma {:induction false} AscendingUnique(a: seq<int>, b: seq<int>)
    requires Ascending(a) && Ascending(b)
    requires multiset(a) == multiset(b)
    ensures a == b
    decreases |a|
  {
    assert |a| == |multiset(a)| == |multiset(b)| == |b|;
    if |a| > 0 {
      assert a[0] in multiset(b) && b[0] in multiset(a);
      assert a[0] in b && b[0] in a;
      var i :| 0 <= i < |b| && b[i] == a[0];
      var j :| 0 <= j < |a| && a[j] == b[0];
      assert b[0] <= b[i] && a[0] <= a[j];
      assert a[0] == b[0];
      MultisetTail(a);
      MultisetTail(b);
      AscendingUnique(a[1..], b[1..]);
    }
  }

  lemma MultisetTail(a: seq<int>)
    requires |a| > 0
    ensures multiset(a[1..]) == multiset(a) - multiset{a[0]}
  {
    assert a == [a[0]] + a[1..];
  }

  /** A ranked (name, score) pair. */
  datatype Entry = Entry(name: string, score: real)

  ghost predicate NonIncreasing(s: seq<Entry>) {
    forall i, j :: 0 <= i < j < |s| ==> s[i].score >= s[j].score
  }

  /** The entries of `s` whose score is exactly `v`, in their order in `s`. */
  function WithScore(s: seq<Entry>, v: real): seq<Entry>
  {
    if |s| == 0 then []
    else (if s[0].score == v then [s[0]] else []) + WithScore(s[1..], v)
  }

  /** Places `x` before the first entry of `s` that does not score higher. */
  function InsertDescending(x: Entry, s: seq<Entry>): (r: seq<Entry>)
    requires NonIncreasing(s)
    ensures |r| == |s| + 1
    ensures r[0] == x || (|s| > 0 && r[0] == s[0])
    ensures NonIncreasing(r)
    ensures multiset(r) == multiset(s) + multiset{x}
  {
    if |s| == 0 then [x]
    else if s[0].score <= x.score then [x] + s
    else
      var t := InsertDescending(x, s[1..]);
      assert forall j :: 0 <= j < |t| ==> s[0].score >= t[j].score by {
        forall j | 0 <= j < |t| ensures s[0].score >= t[j].score {
          assert t[0].score >= t[j].score || j == 0;
        }
      }
      assert s == [s[0]] + s[1..];
      [s[0]] + t
  }

  /** `x` lands after every entry scoring higher and before every entry scoring the same. */
  lemma {:induction false} InsertDescendingStable(x: Entry, s: seq<Entry>, v: real)
    requires NonIncreasing(s)
    ensures WithScore(InsertDescending(x, s), v) == (if x.score == v then [x] else []) + WithScore(s, v)
  {
    if |s| > 0 {
      if s[0].score <= x.score {
        WithScoreCons(x, s);
      } else {
        var t := InsertDescending(x, s[1..]);
        InsertDescendingStable(x, s[1..], v);
        WithScoreCons(s[0], t);
        assert s == [s[0]] + s[1..];
        WithScoreCons(s[0], s[1..]);
      }
    }
  }

  lemma WithScoreCons(x: Entry, s: seq<Entry>)
    ensures forall v :: WithScore([x] + s, v) == (if x.score == v then [x] else []) + WithScore(s, v)
  {
    assert ([x] + s)[1..] == s;
  }

  /**
   Python's stable `sort(key=score, reverse=True)`: a permutation of `s` with
   non-increasing scores in which entries of equal score keep their order.
   */
  function RankDescending(s: seq<Entry>): (r: seq<Entry>)
    ensures NonIncreasing(r)
    ensures multiset(r) == multiset(s)
    ensures |r| == |s|
    ensures forall v :: WithScore(r, v) == WithScore(s, v)
  {
    if |s| == 0 then []
    else
      assert s == [s[0]] + s[1..];
      var t := RankDescending(s[1..]);
      assert forall v :: WithScore(InsertDescending(s[0], t), v) == WithScore(s, v) by {
        forall v ensures WithScore(InsertDescending(s[0], t), v) == WithScore(s, v) {
          InsertDescendingStable(s[0], t, v);
          WithScoreCons(s[0], s[1..]);
        }
      }
      InsertDescending(s[0], t)
  }
}

=== FILE: text.dfy ===
/**
 The Python `str` operations the scorers rely on, with Python's semantics:
 `strip()`, `upper()`, `startswith`, `replace(pattern, "")`, `split("\n")`
 and `int()` of a single character.
 */
module Text {
  import opened Base

  /** Python's `str.isspace` for one character (the set `strip()` removes). */
  predicate IsSpace(c: char) {
    var n := c as int;
    9 <= n <= 13 || 28 <= n <= 32 || n == 0x85 || n == 0xA0 || n == 0x1680
    || 0x2000 <= n <= 0x200A || n == 0x2028 || n == 0x2029 || n == 0x202F
    || n == 0x205F || n == 0x3000
  }

  /** `s` without its leading whitespace. */
  function StripLeft(s: string): (r: string)
    ensures |r| <= |s| && r == s[|s| - |r|..]
    ensures forall i :: 0 <= i < |s| - |r| ==> IsSpace(s[i])
    ensures r == [] || !IsSpace(r[0])
  {
    if |s| > 0 && IsSpace(s[0]) then StripLeft(s[1..]) else s
  }

  /** `s` without its trailing whitespace. */
  function StripRight(s: string): (r: string)
    ensures |r| <= |s| && r == s[..|r|]
    ensures forall i :: |r| <= i < |s| ==> IsSpace(s[i])
    ensures r == [] || !IsSpace(r[|r| - 1])
  {
    if |s| > 0 && IsSpace(s[|s| - 1]) then StripRight(s[..|s| - 1]) else s
  }

  /**
   Python's `s.strip()`: a piece of `s` that neither starts nor ends with
   whitespace.
   */
  function Strip(s: string): (r: string)
    ensures |r| <= |s|
    ensures OccursAt(s, r, |s| - |StripLeft(s)|)
    ensures r == [] || (!IsSpace(r[0]) && !IsSpace(r[|r| - 1]))
  {
    var l := StripLeft(s);
    var r := StripRight(l);
    assert r != [] ==> r[0] == l[0];
    assert s[|s| - |l|..][..|r|] == s[|s| - |l|..|s| - |l| + |r|];
    r
  }

  /**
   What `strip()` removes: `s` is the stripped text with whitespace before
   and after it, and the stripped text neither starts nor ends with
   whitespace, so nothing more could have been removed.
   */
  lemma StripParts(s: string) returns (pre: string, post: string)
    ensures s == pre + Strip(s) + post
    ensures forall i :: 0 <= i < |pre| ==> IsSpace(pre[i])
    ensures forall i :: 0 <= i < |post| ==> IsSpace(post[i])
    ensures Strip(s) == [] || (!IsSpace(Strip(s)[0]) && !IsSpace(Strip(s)[|Strip(s)| - 1]))
  {
    pre := LeftPart(s);
    post := RightPart(StripLeft(s));
    AppendAssoc(pre, Strip(s), post);
  }

  lemma AppendAssoc(a: string, b: string, c: string)
    ensures a + (b + c) == a + b + c
  {
  }

  lemma LeftPart(s: string) returns (pre: string)
    ensures s == pre + StripLeft(s)
    ensures forall i :: 0 <= i < |pre| ==> IsSpace(pre[i])
  {
    pre := s[..|s| - |StripLeft(s)|];
    forall i | 0 <= i < |pre| ensures IsSpace(pre[i]) {
      assert pre[i] == s[i];
    }
  }

  lemma RightPart(l: string) returns (post: string)
    ensures l == StripRight(l) + post
    ensures forall i :: 0 <= i < |post| ==> IsSpace(post[i])
  {
    var r := StripRight(l);
    post := l[|r|..];
    forall i | 0 <= i < |post| ensures IsSpace(post[i]) {
      assert post[i] == l[|r| + i];
    }
  }

  /**
   Python's upper-casing of one character, as far as it can matter to the
   answer extraction: ASCII letters, and U+1E9A, whose upper-case form is
   the two characters "A" and U+02BE. Every other character is kept.
   */
  function UpperOf(c: char): (u: string)
    ensures 1 <= |u| <= 2
  {
    if 'a' <= c <= 'z' then [(c as int - 32) as char]
    else if c as int == 0x1E9A then ['A', 0x02BE as char]
    else [c]
  }

  /**
   Python's `s.upper()`: the concatenation of the upper-case forms of the
   characters. Only U+1E9A grows; without it, every character keeps its place.
   */
  function Upper(s: string): (r: string)
    ensures |s| <= |r| <= 2 * |s|
    ensures (forall i :: 0 <= i < |s| ==> s[i] as int != 0x1E9A) ==>
      |r| == |s| && forall i :: 0 <= i < |s| ==> r[i] == UpperOf(s[i])[0]
  {
    if |s| == 0 then []
    else
      var r := UpperOf(s[0]) + Upper(s[1..]);
      assert (forall i :: 0 <= i < |s| ==> s[i] as int != 0x1E9A) ==> forall i :: 1 <= i < |s| ==> s[i] == s[1..][i - 1];
      r
  }

  /** Every character of the upper-cased, stripped text is a character of the upper-cased text. */
  lemma UpperOfStripWithin(s: string)
    ensures forall c :: c in Upper(Strip(s)) ==> c in Upper(s)
  {
    var pre, post := StripParts(s);
    UpperAppend(pre + Strip(s), post);
    UpperAppend(pre, Strip(s));
  }

  lemma {:induction false} UpperAppend(a: string, b: string)
    ensures Upper(a + b) == Upper(a) + Upper(b)
  {
    if |a| == 0 {
      assert a + b == b;
    } else {
      assert (a + b)[1..] == a[1..] + b;
      UpperAppend(a[1..], b);
    }
  }

  /** Python's `s.startswith(p)`. */
  predicate StartsWith(s: string, p: string) {
    |p| <= |s| && s[..|p|] == p
  }

  /** Python's `s.replace(p, "")`: every non-overlapping occurrence of `p`, scanning left to right, removed. */
  function RemoveAll(s: string, p: string): (r: string)
    requires |p| > 0
    ensures |r| <= |s|
    decreases |s|
  {
    if |s| < |p| then s
    else if s[..|p|] == p then RemoveAll(s[|p|..], p)
    else [s[0]] + RemoveAll(s[1..], p)
  }

  /** `p` occurs in `s` starting at position `j`. */
  predicate OccursAt(s: string, p: string, j: nat) {
    j + |p| <= |s| && s[j..j + |p|] == p
  }

  /** Python's `p in s` for strings. */
  ghost predicate Occurs(s: string, p: string) {
    exists j: nat :: OccursAt(s, p, j)
  }

  /** `replace` leaves a string without an occurrence of `p` unchanged, and removes a leading `p`. */
  lemma {:induction false} RemoveAllAbsent(s: string, p: string)
    requires |p| > 0
    ensures !Occurs(s, p) ==> RemoveAll(s, p) == s
    ensures RemoveAll(p + s, p) == RemoveAll(s, p)
    decreases |s|
  {
    assert (p + s)[..|p|] == p && (p + s)[|p|..] == s;
    if !Occurs(s, p) && |s| >= |p| {
      assert !OccursAt(s, p, 0);
      assert !Occurs(s[1..], p) by {
        if Occurs(s[1..], p) {
          var j: nat :| OccursAt(s[1..], p, j);
          assert s[1..][j..j + |p|] == s[j + 1..j + 1 + |p|];
          assert OccursAt(s, p, j + 1);
        }
      }
      RemoveAllAbsent(s[1..], p);
      assert [s[0]] + s[1..] == s;
    }
  }

  /** Python's `s.split(sep)` for a one-character separator: never empty, and no piece holds `sep`. */
  function Split(s: string, sep: char): (r: seq<string>)
    ensures |r| >= 1
    ensures forall i :: 0 <= i < |r| ==> sep !in r[i]
  {
    if sep !in s then [s]
    else
      var k := IndexOf(s, sep);
      [s[..k]] + Split(s[k + 1..], sep)
  }

  /** Position of the first `c` in `s`. */
  function IndexOf(s: string, c: char): (k: nat)
    requires c in s
    ensures k < |s| && s[k] == c && c !in s[..k]
  {
    if s[0] == c then 0 else 1 + IndexOf(s[1..], c)
  }

  /** Python's `sep.join(parts)`. */
  function Join(parts: seq<string>, sep: char): string
    requires |parts| >= 1
  {
    if |parts| == 1 then parts[0] else parts[0] + [sep] + Join(parts[1..], sep)
  }

  /** Splitting and joining back returns the original text. */
  lemma {:induction false} JoinSplit(s: string, sep: char)
    ensures Join(Split(s, sep), sep) == s
    decreases |s|
  {
    if sep in s {
      var k := IndexOf(s, sep);
      var tail := Split(s[k + 1..], sep);
      assert Split(s, sep) == [s[..k]] + tail;
      assert ([s[..k]] + tail)[1..] == tail;
      assert Join(Split(s, sep), sep) == s[..k] + [sep] + Join(tail, sep);
      JoinSplit(s[k + 1..], sep);
      assert s == s[..k] + [sep] + s[k + 1..];
    }
  }

  /** Joining pieces that do not hold the separator and splitting again returns the pieces. */
  lemma {:induction false} SplitJoin(parts: seq<string>, sep: char)
    requires |parts| >= 1
    requires forall i :: 0 <= i < |parts| ==> sep !in parts[i]
    ensures Split(Join(parts, sep), sep) == parts
    decreases |parts|
  {
    if |parts| > 1 {
      var rest := parts[1..];
      assert Join(parts, sep) == parts[0] + [sep] + Join(rest, sep);
      SplitCons(parts[0], Join(rest, sep), sep);
      SplitJoin(rest, sep);
      assert parts == [parts[0]] + rest;
    }
  }

  /** Splitting text that starts with a separator-free piece and a separator yields that piece first. */
  lemma SplitCons(a: string, b: string, sep: char)
    requires sep !in a
    ensures Split(a + [sep] + b, sep) == [a] + Split(b, sep)
  {
    var s := a + [sep] + b;
    IndexOfAfter(a, b, sep);
    assert s[..|a|] == a;
    assert s[|a| + 1..] == b;
  }

  /** The first separator after a separator-free prefix is at the end of that prefix. */
  lemma {:induction false} IndexOfAfter(a: string, b: string, sep: char)
    requires sep !in a
    ensures sep in a + [sep] + b
    ensures IndexOf(a + [sep] + b, sep) == |a|
  {
    assert (a + [sep] + b)[|a|] == sep;
    if |a| > 0 {
      assert (a + [sep] + b)[1..] == a[1..] + [sep] + b;
      IndexOfAfter(a[1..], b, sep);
    }
  }

  /** Python's `int(c)` for a one-character string, for ASCII digits; `None` where `int` raises. */
  function DigitValue(c: char): (d: Option<int>)
    ensures d.Some? <==> '0' <= c <= '9'
    ensures d.Some? ==> 0 <= d.value <= 9 && d.value == c as int - '0' as int
  {
    if '0' <= c <= '9' then Some(c as int - '0' as int) else None
  }
}
